=== FILE: README.md ===
# Job scraper core, modelled in Dafny

The scraper points an AI model at a company's careers page and asks it for CSS
selectors: job card, title, location, link, id, description and next-page
control. In *scout mode* it fetches the page and strips `script`, `style` and
`svg` elements. It keeps only the `body`, asks the model and stores the
answer under a normalised company key.

In *scrape mode* it walks the listing page by page using those selectors. For
each card it builds a record holding title, location, absolute job URL, job
id, preview description and company. On a page's first card, if that card has
a link and no analysis has happened yet, it asks the model once for a second
set of selectors, for the detail page. After that it opens every job's detail
page and merges the extracted fields into the record. The records are then
meant to be written out as CSV and JSON. As written, the CSV writer raises on
the first row, so the JSON file is never written (see Findings).

This project models that logic as pure functions over immutable data:

- The browser is replaced by scripted observations. A `ListPage` holds its
  cards and its next-page control. A `Card` holds what reading each field
  gives, or that reading it raised.
- HTML documents are abstract trees of `Node`s.
- The model's text generation, `json.loads` and `str(soup.body)` are oracle
  functions passed in as parameters.
- Dates and timestamps are parameters.

| module | file | models |
|---|---|---|
| `Wrappers` | wrappers.dfy | `Option`, and `Probe` (a browser read that either gives a value or raises) |
| `Text` | text.dfy | `str.strip`, `rstrip`, `lower`, `in`, `startswith` and `replace` over ASCII |
| `Json` | json.dfy | JSON values and Python truthiness |
| `JobId` | job_id.dfy | `extract_job_id`; the seven regular expressions are written out as leftmost-match searches |
| `Links` | links.dfy | `str.split('/')`, `'/'.join` and the absolutisation of a relative job link |
| `Markup` | markup.dfy | removing `script`/`style`/`svg` and keeping `soup.body` |
| `JobDetails` | job_details.dfy | `extract_job_details` |
| `GeminiAi` | gemini_ai.dfy | response cleaning and the exception-to-`None` behaviour of both AI calls |
| `Utils` | utils.dfy | `get_safe_company_name`, and the configuration file as an in-memory store |
| `WebScraper` | web_scraper.dfy | `scout_mode` and `scrape_mode`: cards, schema discovery, detail fetch, pagination |
| `WalkProperties` | walk_properties.dfy | lemmas about the whole walk |
| `DataStorage` | data_storage.dfy | CSV header order, row writing, JSON entries, `save_job_data` |
| `EnhancedPrompts` | enhanced_prompts.dfy | site-hint selection and `str.format` of the prompt template |

`gemini_ai.py` makes one call to one model, and pruning keeps `body` with all
its attributes.

## Model

| member | source | states |
|---|---|---|
| Text.Strip | gemini_ai.py:54 | `strip()` removes whitespace only, from both ends, and leaves text that neither starts nor ends with whitespace |
| Text.StripIdempotent | gemini_ai.py:54 | stripping twice gives the same text as stripping once |
| GeminiAi.CleanResponse | gemini_ai.py:54 | the cleaned reply has no surrounding whitespace and contains no triple backtick anywhere |
| GeminiAi.NoFenceAfterRemoval | gemini_ai.py:54 | a single left-to-right `replace('```', '')` can never leave three backticks in a row |
| GeminiAi.CleanIdempotent | gemini_ai.py:54 | cleaning an already cleaned reply changes nothing |
| GeminiAi.CleanPassesThrough | gemini_ai.py:54 | a reply with no fence and no surrounding whitespace reaches the parser unchanged |
| GeminiAi.CleanUnwrapsJsonFence | gemini_ai.py:54 | a body inside a "```json" fence comes out as the body alone |
| GeminiAi.CleanUnwrapsPlainFence | gemini_ai.py:54 | a body inside an untagged fence comes out as the body, unless it starts with "json" |
| GeminiAi.UpperCaseTagSurvives | gemini_ai.py:54 | only the lower-case tag is removed: "```JSON{}```" cleans to "JSON{}" |
| GeminiAi.Ask | gemini_ai.py:52-60 | a failed generation gives None; otherwise the parser's answer is returned as it is, and the parser only sees trimmed, fence-free text |
| GeminiAi.SelectorsFromAi | gemini_ai.py:14-60 | the listing-page call: None when generation fails, else the parse of the cleaned reply |
| GeminiAi.DetailSelectorsFromAi | gemini_ai.py:63-109 | the detail-page call: None when generation fails, else the parse of the cleaned reply |
| JobId.MatchAt | web_scraper.py:24-32 | a pattern matched at a position captures a non-empty run of word characters, or of digits for the trailing-number pattern |
| JobId.SearchFrom | web_scraper.py:34 | `re.search` gives the capture at the leftmost position where the pattern matches, and None exactly when no position matches |
| JobId.FirstPatternMatch | web_scraper.py:33-36 | the result is the capture of the first pattern in list order that matches anywhere in the href |
| JobId.FirstNonEmptyAttribute | web_scraper.py:38-42 | the first of data-id, data-job-id, data-position-id, id whose value is non-empty; earlier ones are absent or empty |
| JobId.FirstAttribute | web_scraper.py:38-51 | reading the attributes in order gives the first non-empty one; it raises exactly when a read raises before any non-empty one is found, which the handler turns into None |
| JobId.ExtractJobId | web_scraper.py:15-51 | a raising href read gives None; a matching href decides; otherwise the first non-empty attribute, or None when an attribute read raises first; otherwise the stripped text if it is all digits; otherwise None |
| JobId.RaisingAttributeGivesNone | web_scraper.py:38-51 | a `data-id` read that raises ends the search with None, even though `data-job-id` and the digit text would give an id |
| JobId.HrefDecidesAlone | web_scraper.py:21-36 | when an href pattern matches, attributes and text are never consulted |
| JobId.HrefIdIsWord | web_scraper.py:24-36 | an id taken from the href is non-empty and made of word characters |
| JobId.UrlBeatsDataAttribute | web_scraper.py:21-42 | an element with both a matching job URL and a data-job-id resolves through the URL |
| JobId.TrailingNumberBeforeNewline | web_scraper.py:31 | `$` also matches before a final newline, so a trailing number there is accepted |
| JobId.TrailingNumberWithSlash | web_scraper.py:31 | a trailing number followed by one slash is accepted |
| JobId.NoSlashNoPathMatch | web_scraper.py:25-31 | an href without a slash can match only the query-parameter patterns |
| JobId.MixedQueryIdParam | web_scraper.py:28 | the `id=` pattern is case-sensitive, so it skips `jobId=12` and captures "7" from a later `uid=7` |
| JobId.PatternOrderBeatsPosition | web_scraper.py:33-36 | an earlier pattern wins even when a later one matches further left |
| JobId.EmptyAttributeSkipped | web_scraper.py:38-42 | an empty data-id is skipped and the next non-empty attribute is used |
| JobId.DigitTextAccepted | web_scraper.py:44-47 | text " 42 " gives the id "42" |
| JobId.OtherTextRefused | web_scraper.py:44-51 | text "42a" gives None |
| Links.Split | web_scraper.py:196 | `split('/')` yields at least one field and no field contains '/' |
| Links.JoinSplit | web_scraper.py:196 | joining the split fields with '/' gives back the URL |
| Links.SplitJoin | web_scraper.py:196 | splitting slash-free fields joined with '/' gives back the fields |
| Links.Absolutise | web_scraper.py:193-197 | an href starting with "http" is kept; any other href raises when the page URL has fewer than three fields, and otherwise ends with the href unchanged |
| Links.AbsolutiseAgainstOrigin | web_scraper.py:196-197 | a relative href on "https://host/..." becomes "https://host" followed by the href |
| Markup.Prune | web_scraper.py:101-103 | no script, style or svg element remains anywhere in the pruned tree |
| Markup.PruneKeepsOrder | web_scraper.py:101-103 | the pruned document's tags are a subsequence of the original's, in document order |
| Markup.PruneAppend | web_scraper.py:101-103 | pruning two forests side by side gives the two pruned forests side by side |
| Markup.PruneNode | web_scraper.py:101-103 | a text node is kept as it is, a noise element disappears with its subtree, and any other element stays with its children pruned |
| Markup.PruneIdempotent | web_scraper.py:101-103 | pruning twice equals pruning once |
| Markup.FindBody | web_scraper.py:104 | `soup.body` is a body element, found exactly when one occurs in the document |
| Markup.Reduce | web_scraper.py:101-104 | the reduced markup is a noise-free body element; it is the node at the first body position of the pruned document's pre-order node list, and None exactly when no node of that list is a body |
| Markup.FindBodyFirst | web_scraper.py:104 | `soup.body` against an independent pre-order list of all nodes: None when no node is a body, and otherwise the node at the first position holding a body |
| Markup.EarlierBodyKept | web_scraper.py:101-104 | of two bodies with the same tags in the same order, the earlier one is kept |
| Markup.ReduceIdempotent | web_scraper.py:101-104 | reducing an already reduced body gives it back |
| Markup.BodyInsideNoiseIsGone | web_scraper.py:101-104 | a body nested inside a script, style or svg is removed with it |
| JobDetails.FieldValue | web_scraper.py:65-77 | a value is non-empty stripped text, and None when the selector is falsy, the element is hidden, the text is blank, or the lookup raises |
| JobDetails.ExtractJobDetails | web_scraper.py:54-82 | an unreachable page, or selectors that are not a map, give an empty map; otherwise the keys are exactly the selector keys, and a value is present iff its selector yields text |
| JobDetails.FalsySelectorGivesNone | web_scraper.py:66-77 | a null or empty selector gives None for its key |
| JobDetails.DetailsDependOnSelectorsOnly | web_scraper.py:65-77 | two reachable pages that show the same for every selector in use give the same details |
| JobDetails.ValuesAreStripped | web_scraper.py:70-71 | every present value is non-empty and has no surrounding whitespace |
| Utils.SafeCompanyName | utils.py:19-22 | the key is no longer than the name and holds only lower-case letters, digits, '-' and '_' |
| Utils.SafeCompanyNameIdempotent | utils.py:19-22 | normalising a key again gives the same key |
| Utils.TrailingSpaceIgnored | utils.py:21 | trailing spaces do not change the key |
| Utils.LeadingSpaceBecomesUnderscore | utils.py:21-22 | a leading space becomes a leading '_' |
| Utils.SaveConfiguration | utils.py:56-69 | the entry under the name's key holds exactly the name, the selectors and the time, replacing any older entry whole; every other entry is unchanged |
| Utils.GetCompanyConfiguration | utils.py:72-79 | None iff the key is absent; the saved selectors, or `{}` when the entry has none; a stored JSON null comes back as `Some(JNull)`, standing for the `None` that `.get` returns, which every caller treats as falsy |
| Utils.SaveThenGet | utils.py:56-79 | getting after saving under the same name gives back the saved selectors |
| Utils.SaveKeepsOthers | utils.py:56-79 | saving under one name does not change what another key gives |
| Utils.SameKeyOverwrites | utils.py:56-79 | two names with the same key share one entry; the later save wins |
| WebScraper.StartConsistent | web_scraper.py:159-168 | the initial session satisfies the walk invariant: at most one discovery, and fetches only with truthy detail selectors |
| WebScraper.LinkAndId | web_scraper.py:186-203 | no link without a truthy link selector; an absolute href is kept; a relative one is absolutised, or kept raw with no id when absolutising raises; the id comes from the link element only when the id selector is truthy; a raising href read gives neither link nor id |
| WebScraper.BaseRecord | web_scraper.py:180-220 | there is no base record exactly when the title or location raises under a truthy selector; otherwise it has the six base keys, `company` is the company name, title and location are the card's stripped texts when their selectors are truthy and None otherwise, and the preview description is the stripped text when present |
| WebScraper.Discover | web_scraper.py:225-247 | opens the job link once; a failure turns full details off; otherwise the detail selectors are the AI answer on the reduced page, and details stay on only if the return to the list succeeds |
| WebScraper.Append | web_scraper.py:258 | appends exactly one record and changes nothing else |
| WebScraper.FetchDetails | web_scraper.py:250-256 | records the fetch; the record is base merged with the detail fields, and the card is dropped when going back fails |
| WebScraper.FetchOrKeep | web_scraper.py:250-258 | with falsy detail selectors nothing is fetched and the base record is appended; with truthy ones the link is fetched, and base merged with the details is appended exactly when going back succeeds |
| WebScraper.WithDetails | web_scraper.py:223-258 | the link is visited for discovery exactly on a page's first card before analysis; then, with falsy detail selectors, the base record is appended, and with truthy ones the link is fetched and base merged with the details is appended exactly when going back succeeds |
| WebScraper.MergeKeepsCompany | web_scraper.py:213-252 | merging details keeps the base keys, and `company` changes only if the detail selectors have a "company" key |
| WebScraper.Keep | web_scraper.py:222-258 | with details off or no link, exactly the base record is appended; discovery visits the card's own link, exactly on a page's first card before analysis; a fetch happens iff details are on, there is a link and the detail selectors are truthy; no record is added iff the fetch happened and going back failed; keeps the walk invariant |
| WebScraper.ProcessCard | web_scraper.py:179-267 | a card whose title or location raises changes nothing; a readable card adds exactly its base record when details are off or it has no link, and base merged with details after a fetch whose return succeeds; it adds nothing iff it was fetched and going back failed; discovery visits the card's own link, exactly when it is a page's first card, it is readable and has a link, details are on and nothing was analysed yet |
| WebScraper.ProcessCards | web_scraper.py:179-267 | records are only appended, at most one per card; the walk invariant is kept, and so is every record naming the company unless the detail selectors have a "company" field |
| WebScraper.CardCarriesCompany | web_scraper.py:179-267 | one card keeps every record naming the company, unless the detail selectors have a "company" field |
| WebScraper.Walk | web_scraper.py:170-283 | keeps the invariant, including every record naming the company unless the detail selectors override it; records only grow; a missing card selector, a page that never loads or an empty page gives back the session unchanged |
| WebScraper.ResolveSelectors | web_scraper.py:139-155 | given truthy selectors are used; otherwise the company's stored selectors when truthy; with no company name, the site-wide file |
| WebScraper.ScrapeSession | web_scraper.py:130-287 | detail selectors are requested at most once; fetches happen only with truthy detail selectors; every record has the base keys and names the company unless the detail selectors have a "company" field; no selectors gives no records |
| WebScraper.ScrapeMode | web_scraper.py:130-287 | every record has the six base keys, and its `company` is the company name unless the one detail-selector answer has a "company" field; no records come back when no selectors are found |
| WebScraper.ScoutMode | web_scraper.py:85-127 | selectors are returned only when the AI answer is truthy, saved under the company key or as the site-wide file; a failed page load or an AI failure leaves the store unchanged |
| WalkProperties.DetailsOffKeepsReadableCards | web_scraper.py:179-267 | with full details off, a page appends exactly the base records of its readable cards, in card order, and nothing else changes |
| WalkProperties.DroppedCardIsSkipped | web_scraper.py:179-267 | a failing card, other than the first card of the page, changes nothing for the cards around it |
| WalkProperties.NothingAfterLastPage | web_scraper.py:269-280 | pages after one without an enabled next control are never visited |
| WalkProperties.SinglePageWithoutPagination | web_scraper.py:269-280 | without a pagination selector, only the first page is scraped |
| WalkProperties.StopKeepsEarlierPages | web_scraper.py:170-177 | a page that does not load, or has no cards, ends the walk and keeps the earlier pages' records |
| WalkProperties.EarlierPagesComeFirst | web_scraper.py:170-280 | the records from the first k pages are a prefix of the walk's result |
| WalkProperties.FailedDiscoveryTurnsDetailsOff | web_scraper.py:225-247 | a raising schema discovery keeps the base record, fetches nothing and turns details off |
| WalkProperties.LateDiscoveryFailureStillFetches | web_scraper.py:239-256 | if only the return to the list fails after a successful discovery, this card's details are still fetched and details are off afterwards |
| WalkProperties.ScoutThenScrape | web_scraper.py:109-155 | the selectors scout mode returns are the ones scrape mode later resolves |
| DataStorage.AllFields | data_storage.py:24-27 | a key is a field iff it occurs in at least one job |
| DataStorage.Filter | data_storage.py:30-36 | keeps exactly the listed keys, in their order and without duplicates |
| DataStorage.Header | data_storage.py:30-36 | every field exactly once; known columns first, in the fixed order and limited to fields present; the others after them |
| DataStorage.CsvHeader | data_storage.py:24-36 | the header holds each key of each job exactly once |
| DataStorage.CsvCell | data_storage.py:44-47 | a cell holds the row's value for its column, and is empty when the value is missing or None |
| DataStorage.WriteRows | data_storage.py:42-47 | writes rows in order, stopping at the first row that has a key outside the header |
| DataStorage.Row | data_storage.py:44-46 | the row has the job's keys plus company and scraped_date, with the other values unchanged |
| DataStorage.WriteCsv | data_storage.py:38-47 | the file is written iff every row's keys are in the header, and then has one line per row after the header |
| DataStorage.SaveJobDataCsv | data_storage.py:14-50 | an empty job list writes nothing; a file is written only if every row fits the header |
| DataStorage.CsvRaisesOnFirstRow | data_storage.py:24-47 | jobs without a scraped_date key make the writer raise on the first row, after the header |
| DataStorage.SaveJobDataCsvFixed | data_storage.py:14-50 | with the header built from the finished rows, an empty list writes nothing, and every line has the header's width |
| DataStorage.FixedCsvWritesEveryRow | data_storage.py:24-47 | every job gets its line, in order, under a header built from the finished rows |
| DataStorage.FixedCsvCarriesCompanyAndDate | data_storage.py:44-47 | every written line has the company name and the date in those columns |
| DataStorage.Entry | data_storage.py:73-81 | the entry has company and scraped_date, keeps every other non-None field unchanged, and drops the None ones |
| DataStorage.EntryIdempotent | data_storage.py:73-81 | cleaning an entry a second time changes nothing |
| DataStorage.SaveCompanyDataJson | data_storage.py:53-90 | no file for an empty list; otherwise total_jobs equals the number of entries, and the entries follow the input order |
| DataStorage.SaveJobData | data_storage.py:93-103 | an empty list saves nothing; when both files are saved, the JSON document is the one the JSON writer makes |
| DataStorage.JsonNeverReached | data_storage.py:93-103 | jobs without scraped_date end in the CSV error, so the JSON file is never written |
| DataStorage.SaveJobDataFixed | data_storage.py:93-103 | with the corrected CSV writer, any non-empty list saves both files |
| EnhancedPrompts.Format | enhanced_prompts.py:92 | text without braces formats to itself |
| EnhancedPrompts.FormatPlainPrefix | enhanced_prompts.py:92 | brace-free text in front passes through formatting unchanged |
| EnhancedPrompts.EscapedOpen | enhanced_prompts.py:83-92 | "{{" renders as one literal "{" |
| EnhancedPrompts.EscapedClose | enhanced_prompts.py:83-92 | "}}" renders as one literal "}" |
| EnhancedPrompts.FillSlot | enhanced_prompts.py:55-92 | the first "{}" takes the argument |
| EnhancedPrompts.SecondSlotFails | enhanced_prompts.py:92 | a second "{}" with one argument raises |
| EnhancedPrompts.SiteHint | enhanced_prompts.py:32-48 | Google hint iff the lower-cased URL contains "google"; else Microsoft hint iff it contains "microsoft"; else empty |
| EnhancedPrompts.HintsDiffer | enhanced_prompts.py:32-48 | the two hints differ from each other and from the empty hint |
| EnhancedPrompts.HintIgnoresCase | enhanced_prompts.py:34-42 | URLs equal up to case get the same hint |
| EnhancedPrompts.GoogleInAnyCase | enhanced_prompts.py:34-41 | "google" in any case anywhere in the URL selects the Google hint, even when "microsoft" also occurs |
| EnhancedPrompts.EnhancedPrompt | enhanced_prompts.py:28-94 | the prompt is the template formatted with the URL's hint |
| EnhancedPrompts.TemplateFormats | enhanced_prompts.py:50-92 | the template formats without error; the slot takes the argument, and the doubled braces around the JSON example become single |
| EnhancedPrompts.OnlyHintVaries | enhanced_prompts.py:50-94 | the prompts for any two URLs share the same text before and after the hint |

## Left out

- The browser is not modelled. Navigation, waits, timeouts, `locator`, `is_visible`, `go_back` and clicks are replaced by scripted `ListPage` and `Card` observations. Running out of scripted pages counts as the browser failing, which ends the walk.
- BeautifulSoup parsing and `str(soup.body)` are not modelled. The document is an abstract tree. Serialising is an oracle, except that a missing body gives the text "None".
- Gemini's `generate_content` and `json.loads` are oracles. The client set-up at gemini_ai.py:8-11 is not modelled, and neither is the prompt wording in gemini_ai.py, which a `Prompt` tag stands in for.
- Console output (`print`) is left out. It does not affect results.
- File reads and writes are not modelled. The configuration file is an in-memory `Store`, and the CSV and JSON outputs are returned as values. `datetime.now()` becomes parameters.
- `load_configurations` treats a missing or malformed configuration file as empty. That is not modelled: the store is always well formed. So is an entry that is not a dictionary, which would make `.get` raise.
- `ensure_directories`, `get_company_config_file` and `load_companies` in utils.py are not modelled. They are path and file I/O, and the scraping core does not use them.
- `CAREER_SITE_PATTERNS` in enhanced_prompts.py:5-26 is data that no function reads. It is left out.
- batch_operations.py, scrapper.py, config.py and `__init__.py` are not part of this model. They are a command-line interface, batch loops and constants.
- Characters are ASCII. `str.isspace`, `isalnum`, `isdigit`, `lower` and the regular expression `\w` are not modelled on non-ASCII input.
- JSON numbers are integers. Floating-point values are not modelled.
- Python's set iteration order is a parameter `setOrder`. It enumerates the header fields in `save_job_data_csv`.
- Only `{}`, `{{` and `}}` are modelled in `str.format`. Any other brace sequence counts as a format error.
- EnhancedPrompts.Prose: the template's prose passes through a filter that drops braces. The real prose has no braces, so the filter leaves it unchanged, but that is not proved. Evaluating predicates over the long prompt literals is beyond the solver's budget.
- DataStorage.CsvLine: its own contract states only the line's width. The cell contents are stated by `DataStorage.CsvCell`.
- WebScraper.ProcessCards: its contract does not list each card's record. The per-card record is stated by `WebScraper.ProcessCard`, and the records of a whole page with details off by `WalkProperties.DetailsOffKeepsReadableCards`.
- WebScraper.ProcessCards: every card on a page is made absolute against the listing page's URL. After a failed return from a discovery or detail visit (web_scraper.py:229-247, 255-256), the browser may still show the job page, and `page.url` at web_scraper.py:196 would then be that page's URL. The model does not track where the browser was left.

## Findings

| source | as written | input that shows it | evidently intended | confidence | as-written member | corrected member |
|---|---|---|---|---|---|---|
| data_storage.py:24-47 | The CSV header is built from the jobs' own keys. Each row then gains `company` and `scraped_date`, and `csv.DictWriter` raises `ValueError` on a key outside the header. So the first row raises, nothing after the header is written, and `save_job_data` never reaches the JSON writer. | any non-empty job list whose records have no `scraped_date` key, which is every list `scrape_mode` returns | build the header after adding `company` and `scraped_date`, so that every row fits | not executed | DataStorage.CsvRaisesOnFirstRow | DataStorage.FixedCsvWritesEveryRow |

=== FILE: data_storage.dfy ===
/**
 * `data_storage.py`: the shape of the CSV and JSON outputs. Files are not
 * modelled; each save returns the name it would write and the content. The
 * clock is two parameters (`now` for the ISO time stamp, `today` for the
 * date), and the iteration order of Python's set of field names is a
 * parameter `setOrder` enumerating that set.
 */
module DataStorage {
  import opened Wrappers
  import opened Utils
  import opened Markup
  import opened WebScraper

  /** The known columns, in the order the CSV puts them. */
  const OrderedFields: seq<string> := [
    "title", "location", "company", "job_id", "job_url", "preview_description",
    "full_description", "requirements", "job_type", "experience_level",
    "salary", "skills", "deadline", "company_info", "scraped_date"]

  function Elements(xs: seq<string>): set<string> {
    set x | x in xs
  }

  predicate NoDuplicates(xs: seq<string>) {
    forall i, j | 0 <= i < j < |xs| :: xs[i] != xs[j]
  }

  /** `order` lists every member of `s` exactly once, as iterating a set does. */
  predicate Enumerates(order: seq<string>, s: set<string>) {
    NoDuplicates(order) && Elements(order) == s
  }

  /** The keys found in any job (`all_fields`): a key is in it exactly when
      some job has it. */
  function AllFields(jobs: seq<Record>): (r: set<string>)
    ensures forall k :: k in r <==> exists j | 0 <= j < |jobs| :: k in jobs[j]
    decreases |jobs|
  {
    if |jobs| == 0 then {}
    else
      var rest := AllFields(jobs[1..]);
      forall k ensures k in jobs[0].Keys + rest <==> exists j | 0 <= j < |jobs| :: k in jobs[j] {
        if k in rest {
          var j :| 0 <= j < |jobs[1..]| && k in jobs[1..][j];
          assert k in jobs[j + 1];
        }
        if exists j | 0 <= j < |jobs| :: k in jobs[j] {
          var j :| 0 <= j < |jobs| && k in jobs[j];
          if j > 0 {
            assert k in jobs[1..][j - 1];
          }
        }
      }
      jobs[0].Keys + rest
  }

  lemma ElementsCons(x: string, xs: seq<string>)
    ensures Elements([x] + xs) == {x} + Elements(xs)
  {
    var ys := [x] + xs;
    assert forall y | y in xs :: y in ys;
  }

  lemma ElementsAppend(xs: seq<string>, ys: seq<string>)
    ensures Elements(xs + ys) == Elements(xs) + Elements(ys)
  {
  }

  /** The members of `xs` that are in `keep`, in their order in `xs`. */
  function Filter(xs: seq<string>, keep: set<string>): (r: seq<string>)
    ensures Elements(r) == Elements(xs) * keep
    ensures IsSubsequence(r, xs)
    ensures NoDuplicates(xs) ==> NoDuplicates(r)
    decreases |xs|
  {
    if |xs| == 0 then []
    else
      var rest := Filter(xs[1..], keep);
      ElementsCons(xs[0], xs[1..]);
      assert xs == [xs[0]] + xs[1..];
      if xs[0] in keep then
        var r := [xs[0]] + rest;
        ElementsCons(xs[0], rest);
        assert r[1..] == rest;
        assert NoDuplicates(xs) ==> xs[0] !in Elements(xs[1..]);
        r
      else
        rest
  }

  // ---------------------------------------------------------------------------
  // The CSV header.

  lemma OrderedFieldsDistinct()
    ensures NoDuplicates(OrderedFields)
  {
  }

  /** The header of `save_job_data_csv`: the members of `ordered` present in
      `fields`, in their fixed order, then the other keys in set-iteration
      order. */
  function Header(ordered: seq<string>, fields: set<string>, setOrder: seq<string>): (r: seq<string>)
    requires NoDuplicates(ordered)
    requires Enumerates(setOrder, fields)
    // every key of every job, exactly once
    ensures NoDuplicates(r) && Elements(r) == fields
    // known columns first, in their fixed order; the others after them
    ensures exists n | 0 <= n <= |r| ::
              && IsSubsequence(r[..n], ordered)
              && Elements(r[..n]) == fields * Elements(ordered)
              && forall i | n <= i < |r| :: r[i] !in Elements(ordered)
  {
    var known := Filter(ordered, fields);
    var extra := Filter(setOrder, fields - Elements(ordered));
    KnownThenExtra(ordered, fields, known, extra);
    known + extra
  }

  /** The two halves of the header fit together: no key twice, every key
      present, and the known columns first. */
  lemma {:induction false} KnownThenExtra(ordered: seq<string>, fields: set<string>,
                                          known: seq<string>, extra: seq<string>)
    requires NoDuplicates(known) && NoDuplicates(extra)
    requires IsSubsequence(known, ordered)
    requires Elements(known) == Elements(ordered) * fields
    requires Elements(extra) == fields - Elements(ordered)
    ensures NoDuplicates(known + extra) && Elements(known + extra) == fields
    ensures var r := known + extra;
            && IsSubsequence(r[..|known|], ordered)
            && Elements(r[..|known|]) == fields * Elements(ordered)
            && forall i | |known| <= i < |r| :: r[i] !in Elements(ordered)
  {
    var r := known + extra;
    assert r[..|known|] == known;
    ElementsAppend(known, extra);
    forall i | |known| <= i < |r| ensures r[i] !in Elements(ordered) {
      assert r[i] == extra[i - |known|];
      assert r[i] in Elements(extra);
    }
    DisjointConcat(known, extra);
  }

  /** Two duplicate-free lists with no common member concatenate to a
      duplicate-free list. */
  lemma DisjointConcat(a: seq<string>, b: seq<string>)
    requires NoDuplicates(a) && NoDuplicates(b)
    requires Elements(a) !! Elements(b)
    ensures NoDuplicates(a + b)
  {
    var r := a + b;
    forall i, j | 0 <= i < j < |r| ensures r[i] != r[j] {
      if i < |a| && j >= |a| {
        assert r[i] == a[i] && r[i] in Elements(a);
        assert r[j] == b[j - |a|] && r[j] in Elements(b);
      } else if j < |a| {
        assert r[i] == a[i] && r[j] == a[j];
      } else {
        assert r[i] == b[i - |a|] && r[j] == b[j - |a|];
      }
    }
  }

  /** The header over the scraper's known columns. */
  function CsvHeader(fields: set<string>, setOrder: seq<string>): (r: seq<string>)
    requires Enumerates(setOrder, fields)
    ensures NoDuplicates(r) && Elements(r) == fields
  {
    OrderedFieldsDistinct();
    Header(OrderedFields, fields, setOrder)
  }

  /** One CSV line: the row's value under each column, `""` for a missing key
      or `None` (DictWriter's default `restval` and its rendering of `None`). */
  function CsvLine(header: seq<string>, row: Record): (line: seq<string>)
    ensures |line| == |header|
  {
    seq(|header|, i requires 0 <= i < |header| =>
      if header[i] in row && row[header[i]].Some? then row[header[i]].value else "")
  }

  /** `writer.writerow` over the rows in turn: a row with a key that is not a
      column raises `ValueError` and stops the writing. Returns the lines
      written and whether it stopped that way. */
  function WriteRows(header: seq<string>, rows: seq<Record>): (r: (seq<seq<string>>, bool))
    ensures |r.0| <= |rows|
    ensures forall i | 0 <= i < |r.0| :: r.0[i] == CsvLine(header, rows[i])
    ensures !r.1 <==> forall i | 0 <= i < |rows| :: rows[i].Keys <= Elements(header)
    ensures !r.1 ==> |r.0| == |rows|
    ensures r.1 ==> |r.0| < |rows| && !(rows[|r.0|].Keys <= Elements(header))
    decreases |rows|
  {
    if |rows| == 0 then ([], false)
    else if !(rows[0].Keys <= Elements(header)) then ([], true)
    else
      var (lines, failed) := WriteRows(header, rows[1..]);
      assert forall i | 1 <= i < |rows| :: rows[i] == rows[1..][i - 1];
      ([CsvLine(header, rows[0])] + lines, failed)
  }

  /** The row written for a job: a copy with `company` and `scraped_date` set. */
  function Row(job: Record, company: string, today: string): (r: Record)
    ensures r.Keys == job.Keys + {"company", "scraped_date"}
    ensures r["company"] == Some(company) && r["scraped_date"] == Some(today)
    ensures forall k | k in job && k != "company" && k != "scraped_date" :: r[k] == job[k]
  {
    job["company" := Some(company)]["scraped_date" := Some(today)]
  }

  function Rows(jobs: seq<Record>, company: string, today: string): (rows: seq<Record>)
    ensures |rows| == |jobs|
    ensures forall i | 0 <= i < |jobs| :: rows[i] == Row(jobs[i], company, today)
  {
    seq(|jobs|, i requires 0 <= i < |jobs| => Row(jobs[i], company, today))
  }

  function CsvFileName(company: string, stamp: string): string {
    "results/" + SafeCompanyName(company) + "_jobs_" + stamp + ".csv"
  }

  /** What a CSV save leaves: nothing (empty job list), a file cut short by the
      exception, or a complete file under its name. Lines include the header. */
  datatype CsvOutcome =
    | CsvSkipped
    | CsvRaised(partial: seq<seq<string>>)
    | CsvWritten(fileName: string, lines: seq<seq<string>>)

  /** Opening the file, writing the header, then the rows. */
  function WriteCsv(header: seq<string>, rows: seq<Record>, fileName: string): (r: CsvOutcome)
    ensures !r.CsvSkipped?
    ensures r.CsvWritten? <==> forall i | 0 <= i < |rows| :: rows[i].Keys <= Elements(header)
    ensures r.CsvWritten? ==> r.fileName == fileName && |r.lines| == |rows| + 1 && r.lines[0] == header
                              && (forall i | 1 <= i < |r.lines| :: r.lines[i] == CsvLine(header, rows[i - 1]))
                              && forall i | 0 <= i < |r.lines| :: |r.lines[i]| == |header|
    ensures r.CsvRaised? ==> 1 <= |r.partial| <= |rows| && r.partial[0] == header
  {
    var (lines, failed) := WriteRows(header, rows);
    if failed then CsvRaised([header] + lines)
    else CsvWritten(fileName, [header] + lines)
  }

  /** `save_job_data_csv` as written: the header comes from the jobs' own keys,
      but each row gets `company` and `scraped_date` added afterwards. */
  function SaveJobDataCsv(company: string, jobs: seq<Record>, setOrder: seq<string>,
                          today: string, stamp: string): (r: CsvOutcome)
    requires Enumerates(setOrder, AllFields(jobs))
    ensures |jobs| == 0 <==> r.CsvSkipped?
    ensures r.CsvWritten? ==> forall i | 0 <= i < |jobs| :: Row(jobs[i], company, today).Keys <= AllFields(jobs)
  {
    if |jobs| == 0 then CsvSkipped
    else WriteCsv(CsvHeader(AllFields(jobs), setOrder), Rows(jobs, company, today), CsvFileName(company, stamp))
  }

  /** The defect: unless some job already carries `scraped_date`, the header
      lacks that column, so the very first row raises and the file holds the
      header alone. */
  lemma {:induction false} CsvRaisesOnFirstRow(company: string, jobs: seq<Record>, setOrder: seq<string>,
                            today: string, stamp: string)
    requires Enumerates(setOrder, AllFields(jobs))
    requires |jobs| > 0 && forall i | 0 <= i < |jobs| :: "scraped_date" !in jobs[i]
    ensures SaveJobDataCsv(company, jobs, setOrder, today, stamp)
            == CsvRaised([CsvHeader(AllFields(jobs), setOrder)])
  {
    var header := CsvHeader(AllFields(jobs), setOrder);
    var rows := Rows(jobs, company, today);
    assert "scraped_date" !in AllFields(jobs);
    assert "scraped_date" in rows[0].Keys;
    FirstRowRejected(header, rows);
    assert SaveJobDataCsv(company, jobs, setOrder, today, stamp) == WriteCsv(header, rows, CsvFileName(company, stamp));
    assert WriteCsv(header, rows, CsvFileName(company, stamp)) == CsvRaised([header]) by {
      assert [header] + [] == [header];
    }
  }

  lemma FirstRowRejected(header: seq<string>, rows: seq<Record>)
    requires |rows| > 0 && !(rows[0].Keys <= Elements(header))
    ensures WriteRows(header, rows) == ([], true)
  {
  }

  /** The corrected CSV save: the header is built from the rows as they are
      written, `company` and `scraped_date` included. */
  function SaveJobDataCsvFixed(company: string, jobs: seq<Record>, setOrder: seq<string>,
                               today: string, stamp: string): (r: CsvOutcome)
    requires Enumerates(setOrder, AllFields(Rows(jobs, company, today)))
    ensures |jobs| == 0 <==> r.CsvSkipped?
    ensures r.CsvWritten? ==> |r.lines| > 0 && forall i | 0 <= i < |r.lines| :: |r.lines[i]| == |r.lines[0]|
  {
    if |jobs| == 0 then CsvSkipped
    else
      var rows := Rows(jobs, company, today);
      WriteCsv(CsvHeader(AllFields(rows), setOrder), rows, CsvFileName(company, stamp))
  }

  /** With the corrected header every row is written: the header names each
      key once and there is one line per job, in order. */
  lemma {:induction false} FixedCsvWritesEveryRow(company: string, jobs: seq<Record>, setOrder: seq<string>,
                                                  today: string, stamp: string)
    requires Enumerates(setOrder, AllFields(Rows(jobs, company, today)))
    requires |jobs| > 0
    ensures var r := SaveJobDataCsvFixed(company, jobs, setOrder, today, stamp);
            && r.CsvWritten? && |r.lines| == |jobs| + 1
            && r.lines[0] == CsvHeader(AllFields(Rows(jobs, company, today)), setOrder)
            && forall i | 1 <= i < |r.lines| :: r.lines[i] == CsvLine(r.lines[0], Row(jobs[i - 1], company, today))
  {
    var rows := Rows(jobs, company, today);
    var header := CsvHeader(AllFields(rows), setOrder);
    RowsFitHeader(rows, header);
    var r := WriteCsv(header, rows, CsvFileName(company, stamp));
    assert SaveJobDataCsvFixed(company, jobs, setOrder, today, stamp) == r;
    forall i | 1 <= i < |r.lines| ensures r.lines[i] == CsvLine(r.lines[0], Row(jobs[i - 1], company, today)) {
      assert rows[i - 1] == Row(jobs[i - 1], company, today);
    }
  }

  /** A header naming every key of the rows leaves no row out. */
  lemma RowsFitHeader(rows: seq<Record>, header: seq<string>)
    requires Elements(header) == AllFields(rows)
    ensures forall i | 0 <= i < |rows| :: rows[i].Keys <= Elements(header)
  {
  }

  /** Every line after the header is as wide as the header and holds the
      company name and the date in the columns named for them. */
  predicate CarriesCompanyAndDate(lines: seq<seq<string>>, company: string, today: string)
    requires |lines| > 0
  {
    forall i | 1 <= i < |lines| ::
      |lines[i]| == |lines[0]|
      && forall c | 0 <= c < |lines[0]| ::
           (lines[0][c] == "company" ==> lines[i][c] == company)
           && (lines[0][c] == "scraped_date" ==> lines[i][c] == today)
  }

  /** Every written line has the company name and the date in their columns. */
  lemma {:induction false} FixedCsvCarriesCompanyAndDate(company: string, jobs: seq<Record>, setOrder: seq<string>,
                                                         today: string, stamp: string)
    requires Enumerates(setOrder, AllFields(Rows(jobs, company, today)))
    requires |jobs| > 0
    ensures var r := SaveJobDataCsvFixed(company, jobs, setOrder, today, stamp);
            r.CsvWritten? && |r.lines| > 0 && CarriesCompanyAndDate(r.lines, company, today)
  {
    FixedCsvWritesEveryRow(company, jobs, setOrder, today, stamp);
    var r := SaveJobDataCsvFixed(company, jobs, setOrder, today, stamp);
    LinesCarryCompanyAndDate(r.lines, jobs, company, today);
  }

  lemma LinesCarryCompanyAndDate(lines: seq<seq<string>>, jobs: seq<Record>, company: string, today: string)
    requires |lines| == |jobs| + 1
    requires forall i | 1 <= i < |lines| :: lines[i] == CsvLine(lines[0], Row(jobs[i - 1], company, today))
    ensures CarriesCompanyAndDate(lines, company, today)
  {
    forall i | 1 <= i < |lines|
      ensures |lines[i]| == |lines[0]|
      ensures forall c | 0 <= c < |lines[0]| ::
                (lines[0][c] == "company" ==> lines[i][c] == company)
                && (lines[0][c] == "scraped_date" ==> lines[i][c] == today)
    {
      forall c | 0 <= c < |lines[0]|
        ensures lines[0][c] == "company" ==> lines[i][c] == company
        ensures lines[0][c] == "scraped_date" ==> lines[i][c] == today
      {
        LineCarriesCompanyAndDate(lines[0], jobs[i - 1], company, today, c);
      }
    }
  }

  /** Cell `c` of a line holds the row's value for column `c`, or `""`. */
  lemma CsvCell(header: seq<string>, row: Record, c: int)
    requires 0 <= c < |header|
    ensures header[c] in row && row[header[c]].Some? ==> CsvLine(header, row)[c] == row[header[c]].value
    ensures header[c] !in row || row[header[c]].None? ==> CsvLine(header, row)[c] == ""
  {
  }

  lemma LineCarriesCompanyAndDate(header: seq<string>, job: Record, company: string, today: string, c: int)
    requires 0 <= c < |header|
    ensures header[c] == "company" ==> CsvLine(header, Row(job, company, today))[c] == company
    ensures header[c] == "scraped_date" ==> CsvLine(header, Row(job, company, today))[c] == today
  {
    CsvCell(header, Row(job, company, today), c);
  }

  // ---------------------------------------------------------------------------
  // The JSON document.

  /** One job entry: `company` and `scraped_date` set, and every `None` value
      dropped. */
  function Entry(job: Record, company: string, today: string): (e: map<string, string>)
    ensures "company" in e && e["company"] == company
    ensures "scraped_date" in e && e["scraped_date"] == today
    ensures forall k | k in job && k != "company" && k != "scraped_date" ::
              (k in e <==> job[k].Some?) && (k in e ==> e[k] == job[k].value)
    ensures forall k | k in e :: k in job || k == "company" || k == "scraped_date"
  {
    var row := Row(job, company, today);
    map k | k in row && row[k].Some? :: row[k].value
  }

  /** An entry read back as a job (every value present). */
  function AsRecord(entry: map<string, string>): (job: Record)
    ensures job.Keys == entry.Keys
    ensures forall k | k in entry :: job[k] == Some(entry[k])
  {
    map k | k in entry :: Some(entry[k])
  }

  /** Cleaning an entry a second time changes nothing. */
  lemma EntryIdempotent(job: Record, company: string, today: string)
    ensures Entry(AsRecord(Entry(job, company, today)), company, today) == Entry(job, company, today)
  {
    var e := Entry(job, company, today);
    var e2 := Entry(AsRecord(e), company, today);
    assert e2.Keys == e.Keys;
  }

  /** The document `save_company_data_json` writes. */
  datatype CompanyData = CompanyData(
    companyName: string,
    careerUrl: string,
    totalJobs: int,
    scrapedAt: string,
    enhancedExtraction: bool,
    jobs: seq<map<string, string>>)

  function JsonFileName(company: string): string {
    "data/" + SafeCompanyName(company) + ".json"
  }

  /** `save_company_data_json`: `None` for an empty job list; otherwise the file
      name and a document whose `total_jobs` counts its entries, one per job in
      input order. */
  function SaveCompanyDataJson(company: string, jobs: seq<Record>, careerUrl: string,
                               now: string, today: string): (r: Option<(string, CompanyData)>)
    ensures r.None? <==> |jobs| == 0
    ensures r.Some? ==>
              var d := r.value.1;
              && r.value.0 == JsonFileName(company)
              && d.companyName == company && d.careerUrl == careerUrl && d.scrapedAt == now
              && d.enhancedExtraction
              && d.totalJobs == |d.jobs| == |jobs|
              && forall i | 0 <= i < |jobs| :: d.jobs[i] == Entry(jobs[i], company, today)
  {
    if |jobs| == 0 then None
    else
      var entries := seq(|jobs|, i requires 0 <= i < |jobs| => Entry(jobs[i], company, today));
      Some((JsonFileName(company), CompanyData(company, careerUrl, |jobs|, now, true, entries)))
  }

  // ---------------------------------------------------------------------------
  // Both formats.

  /** What `save_job_data` ends with: nothing to save, an exception out of the
      CSV writer (the JSON file is then never written), or both files. */
  datatype SaveOutcome =
    | NothingSaved
    | CsvFailed(partial: seq<seq<string>>)
    | SavedBoth(csvFile: string, jsonFile: string, document: CompanyData)

  function Combine(csv: CsvOutcome, json: Option<(string, CompanyData)>): SaveOutcome {
    match csv
    case CsvSkipped => NothingSaved
    case CsvRaised(partial) => CsvFailed(partial)
    case CsvWritten(name, _) =>
      if json.Some? then SavedBoth(name, json.value.0, json.value.1) else NothingSaved
  }

  /** `save_job_data` as written. */
  function SaveJobData(company: string, jobs: seq<Record>, careerUrl: string, setOrder: seq<string>,
                       now: string, today: string, stamp: string): (r: SaveOutcome)
    requires Enumerates(setOrder, AllFields(jobs))
    ensures |jobs| == 0 <==> r.NothingSaved?
    ensures r.SavedBoth? ==> Some((r.jsonFile, r.document)) == SaveCompanyDataJson(company, jobs, careerUrl, now, today)
  {
    if |jobs| == 0 then NothingSaved
    else Combine(SaveJobDataCsv(company, jobs, setOrder, today, stamp),
                 SaveCompanyDataJson(company, jobs, careerUrl, now, today))
  }

  /** As written, jobs without a `scraped_date` key (all that the scraper
      produces unless a detail key has that name) are never saved as JSON. */
  lemma {:induction false} JsonNeverReached(company: string, jobs: seq<Record>, careerUrl: string, setOrder: seq<string>,
                         now: string, today: string, stamp: string)
    requires Enumerates(setOrder, AllFields(jobs))
    requires |jobs| > 0 && forall i | 0 <= i < |jobs| :: "scraped_date" !in jobs[i]
    ensures SaveJobData(company, jobs, careerUrl, setOrder, now, today, stamp).CsvFailed?
  {
    CsvRaisesOnFirstRow(company, jobs, setOrder, today, stamp);
  }

  /** `save_job_data` with the corrected CSV writer: any non-empty job list is
      saved in both formats. */
  function SaveJobDataFixed(company: string, jobs: seq<Record>, careerUrl: string, setOrder: seq<string>,
                            now: string, today: string, stamp: string): (r: SaveOutcome)
    requires Enumerates(setOrder, AllFields(Rows(jobs, company, today)))
    ensures |jobs| == 0 <==> r.NothingSaved?
    ensures |jobs| > 0 ==> r.SavedBoth? && r.csvFile == CsvFileName(company, stamp)
                           && r.jsonFile == JsonFileName(company) && r.document.totalJobs == |jobs|
  {
    if |jobs| == 0 then NothingSaved
    else
      FixedCsvWritesEveryRow(company, jobs, setOrder, today, stamp);
      Combine(SaveJobDataCsvFixed(company, jobs, setOrder, today, stamp),
              SaveCompanyDataJson(company, jobs, careerUrl, now, today))
  }
}

=== FILE: enhanced_prompts.dfy ===
/**
 * `get_enhanced_prompt_for_site`: the list-page prompt with a site-specific
 * hint chosen from the URL, and Python's `str.format` as it applies to the
 * template: `{}` takes the one argument, `{{` and `}}` stand for single braces.
 */
module EnhancedPrompts {
  import opened Wrappers
  import opened Text

  // ---------------------------------------------------------------------------
  // The texts.

  const GoogleHint: string :=
      "\n"
      + "        GOOGLE CAREERS SPECIFIC HINTS:\n"
      + "        - Jobs are often in elements with data-job-id attributes\n"
      + "        - Look for role=\"listitem\" containers\n"
      + "        - Titles are usually in h3 tags or elements with job-title classes\n"
      + "        - Locations often have location or job-location classes\n"
      + "        "

  const MicrosoftHint: string :=
      "\n"
      + "        MICROSOFT CAREERS SPECIFIC HINTS:\n"
      + "        - Jobs may be in .ms-List-cell containers\n"
      + "        - Look for data-automation-id attributes\n"
      + "        - Titles often have job-title classes or are in anchor tags\n"
      + "        "

  const HeadText: string :=
      "\n"
      + "    You are an expert web scraping assistant analyzing a company's job listings page. \n"
      + "\n"
      + "    IMPORTANT: You must analyze the HTML structure carefully and provide SPECIFIC CSS selectors.\n"
      + "    \n"
      + "    "

  const MidText: string :=
      "\n"
      + "    \n"
      + "    Your task is to identify CSS selectors for these elements:\n"
      + "\n"
      + "    1. **job_item**: Container for each individual job posting (div, article, li, etc.)\n"
      + "    2. **title**: Job title text within each job container\n"
      + "    3. **location**: Job location text within each job container  \n"
      + "    4. **job_link**: Clickable link/button that opens full job details (must be <a> tag or clickable element)\n"
      + "    5. **job_id**: Unique identifier (in href URLs, data attributes, or visible text)\n"
      + "    6. **description**: Brief job summary/description text visible on listing page\n"
      + "    7. **pagination_next**: Next page button/link for pagination\n"
      + "\n"
      + "    ANALYSIS STRATEGY:\n"
      + "    - Look for repeating patterns in the HTML structure\n"
      + "    - Focus on semantic HTML elements (article, section, div with job-related classes)\n"
      + "    - Common job listing patterns: class names containing \"job\", \"position\", \"career\", \"listing\"\n"
      + "    - Look for data attributes like data-job-id, data-automation-id\n"
      + "    - For job_link: Look for <a> tags with href containing job URLs\n"
      + "    - For job_id: Check href patterns like \"/job/12345\" or data-id attributes\n"
      + "    - If an element doesn't exist, set its value to null\n"
      + "\n"
      + "    CRITICAL REQUIREMENTS:\n"
      + "    - Return ONLY valid CSS selectors that exist in the provided HTML\n"
      + "    - Test selectors mentally against the HTML structure\n"
      + "    - Prefer more specific selectors over generic ones\n"
      + "    - If you cannot find a reliable selector, use null\n"
      + "\n"
      + "    You MUST return ONLY a raw JSON object with no explanations or markdown:\n"
      + "    "

  const JsonExampleText: string :=
      "\n"
      + "      \"job_item\": \"specific.css.selector.for.job.container\",\n"
      + "      \"title\": \"specific.css.selector.for.title\",\n"
      + "      \"location\": \"specific.css.selector.for.location\", \n"
      + "      \"job_link\": \"specific.css.selector.for.clickable.link\",\n"
      + "      \"job_id\": \"specific.css.selector.for.identifier\",\n"
      + "      \"description\": \"specific.css.selector.for.description\",\n"
      + "      \"pagination_next\": \"specific.css.selector.for.next.page\"\n"
      + "    "

  const TailText: string :=
      "\n"
      + "    "

  /** The template's prose with any brace removed. The prose pieces above hold
      no brace, so this is each piece itself; writing the template through it
      lets the proofs treat the prose without reading it character by
      character. */
  function Prose(s: string): (r: string)
    ensures '{' !in r && '}' !in r
    ensures |r| <= |s|
    decreases |s|
  {
    if |s| == 0 then ""
    else (if s[0] == '{' || s[0] == '}' then "" else [s[0]]) + Prose(s[1..])
  }

  /** `base_prompt` before formatting: the hint slot `{}` and the JSON example
      between doubled braces. */
  function Template(): string {
    Prose(HeadText) + ("{}" + (Prose(MidText) + ("{{" + (Prose(JsonExampleText) + ("}}" + Prose(TailText))))))
  }

  // ---------------------------------------------------------------------------
  // `str.format` with one positional argument.

  function Prepend(p: string, r: Option<string>): (q: Option<string>)
    ensures q.Some? <==> r.Some?
  {
    if r.Some? then Some(p + r.value) else None
  }

  /** `t.format(arg)` for templates whose fields are all `{}`: `{{` and `}}`
      give single braces, the first `{}` gives `arg`. A second `{}` (index out
      of range), a lone `}`, or any other replacement field (not modelled here)
      give `None`, the exception. `used` says whether `arg` was consumed. */
  function Format(t: string, arg: string, used: bool): (r: Option<string>)
    ensures '{' !in t && '}' !in t ==> r == Some(t)
    decreases |t|
  {
    if |t| == 0 then Some("")
    else if t[0] == '{' then
      if |t| >= 2 && t[1] == '{' then Prepend("{", Format(t[2..], arg, used))
      else if |t| >= 2 && t[1] == '}' && !used then Prepend(arg, Format(t[2..], arg, true))
      else None
    else if t[0] == '}' then
      if |t| >= 2 && t[1] == '}' then Prepend("}", Format(t[2..], arg, used))
      else None
    else
      var rest := Format(t[1..], arg, used);
      assert '{' !in t && '}' !in t ==> '{' !in t[1..] && '}' !in t[1..] && t == [t[0]] + t[1..];
      Prepend([t[0]], rest)
  }

  /** Text without braces passes through formatting untouched. */
  lemma {:induction false} FormatPlainPrefix(a: string, rest: string, arg: string, used: bool)
    requires '{' !in a && '}' !in a
    ensures Format(a + rest, arg, used) == Prepend(a, Format(rest, arg, used))
    decreases |a|
  {
    if |a| == 0 {
      assert a + rest == rest;
      if Format(rest, arg, used).Some? {
        assert a + Format(rest, arg, used).value == Format(rest, arg, used).value;
      }
    } else {
      assert (a + rest)[0] == a[0] && (a + rest)[1..] == a[1..] + rest;
      FormatPlainPrefix(a[1..], rest, arg, used);
      if Format(rest, arg, used).Some? {
        assert [a[0]] + (a[1..] + Format(rest, arg, used).value) == a + Format(rest, arg, used).value;
      }
    }
  }

  /** A doubled brace renders as one brace. */
  lemma EscapedOpen(rest: string, arg: string, used: bool)
    ensures Format("{{" + rest, arg, used) == Prepend("{", Format(rest, arg, used))
  {
    assert ("{{" + rest)[2..] == rest;
  }

  lemma EscapedClose(rest: string, arg: string, used: bool)
    ensures Format("}}" + rest, arg, used) == Prepend("}", Format(rest, arg, used))
  {
    assert ("}}" + rest)[2..] == rest;
  }

  lemma FillSlot(rest: string, arg: string)
    ensures Format("{}" + rest, arg, false) == Prepend(arg, Format(rest, arg, true))
  {
    assert ("{}" + rest)[2..] == rest;
  }

  /** A template with two `{}` fields cannot be formatted with one argument. */
  lemma {:induction false} SecondSlotFails(a: string, b: string, c: string, arg: string)
    requires '{' !in a && '}' !in a && '{' !in b && '}' !in b
    ensures Format(a + "{}" + b + "{}" + c, arg, false).None?
  {
    assert a + "{}" + b + "{}" + c == a + ("{}" + (b + ("{}" + c)));
    FormatPlainPrefix(a, "{}" + (b + ("{}" + c)), arg, false);
    FillSlot(b + ("{}" + c), arg);
    FormatPlainPrefix(b, "{}" + c, arg, true);
    assert ("{}" + c)[0] == '{' && ("{}" + c)[1] == '}';
  }

  // ---------------------------------------------------------------------------
  // The hint and the prompt.

  /** The site hint: Google's when "google" occurs in the lower-cased URL,
      otherwise Microsoft's when "microsoft" does, otherwise nothing. */
  function SiteHint(url: string): (hint: string)
    ensures hint == GoogleHint <==> Contains(Lower(url), "google")
    ensures hint == MicrosoftHint <==> !Contains(Lower(url), "google") && Contains(Lower(url), "microsoft")
    ensures hint == "" <==> !Contains(Lower(url), "google") && !Contains(Lower(url), "microsoft")
  {
    HintsDiffer();
    if Contains(Lower(url), "google") then GoogleHint
    else if Contains(Lower(url), "microsoft") then MicrosoftHint
    else ""
  }

  lemma HintsDiffer()
    ensures GoogleHint != MicrosoftHint && GoogleHint != "" && MicrosoftHint != ""
  {
    assert GoogleHint[9] == 'G';
    assert MicrosoftHint[9] == 'M';
  }

  /** `get_enhanced_prompt_for_site(url)`: the template with the hint in its
      slot and each doubled brace turned into a single one. */
  function EnhancedPrompt(url: string): (prompt: string)
    ensures Format(Template(), SiteHint(url), false) == Some(prompt)
  {
    TemplateFormats(SiteHint(url));
    Prose(HeadText) + (SiteHint(url) + Filled())
  }

  /** The prompt after the hint: the rest of the prose with the JSON example
      between single braces. */
  function Filled(): string {
    Prose(MidText) + ("{" + (Prose(JsonExampleText) + ("}" + Prose(TailText))))
  }

  lemma TemplateFormats(arg: string)
    ensures Format(Template(), arg, false) == Some(Prose(HeadText) + (arg + Filled()))
  {
    var h, m, j, t := Prose(HeadText), Prose(MidText), Prose(JsonExampleText), Prose(TailText);
    ShapeFormats(h, m, j, t, arg);
  }

  /** A template of the same shape as `base_prompt`, whatever its prose. */
  lemma {:induction false} ShapeFormats(h: string, m: string, j: string, t: string, arg: string)
    requires '{' !in h && '}' !in h && '{' !in m && '}' !in m
    requires '{' !in j && '}' !in j && '{' !in t && '}' !in t
    ensures Format(h + ("{}" + (m + ("{{" + (j + ("}}" + t))))), arg, false)
            == Some(h + (arg + (m + ("{" + (j + ("}" + t))))))
  {
    var r5 := "}}" + t;
    var r4 := j + r5;
    var r3 := "{{" + r4;
    var r2 := m + r3;
    var r1 := "{}" + r2;
    EscapedClose(t, arg, true);
    assert Format(r5, arg, true) == Some("}" + t);
    FormatPlainPrefix(j, r5, arg, true);
    assert Format(r4, arg, true) == Some(j + ("}" + t));
    EscapedOpen(r4, arg, true);
    assert Format(r3, arg, true) == Some("{" + (j + ("}" + t)));
    FormatPlainPrefix(m, r3, arg, true);
    assert Format(r2, arg, true) == Some(m + ("{" + (j + ("}" + t))));
    FillSlot(r2, arg);
    assert Format(r1, arg, false) == Some(arg + (m + ("{" + (j + ("}" + t)))));
    FormatPlainPrefix(h, r1, arg, false);
  }

  lemma PromptAroundHint(url: string)
    ensures EnhancedPrompt(url) == Prose(HeadText) + (SiteHint(url) + Filled())
  {
  }

  /** Only the hint slot differs between two URLs' prompts. */
  lemma {:induction false} OnlyHintVaries(url1: string, url2: string)
    ensures exists p, q :: EnhancedPrompt(url1) == p + (SiteHint(url1) + q)
                        && EnhancedPrompt(url2) == p + (SiteHint(url2) + q)
  {
    PromptAroundHint(url1);
    PromptAroundHint(url2);
  }

  /** Matching ignores case: URLs equal up to case get the same hint. */
  lemma HintIgnoresCase(url1: string, url2: string)
    requires Lower(url1) == Lower(url2)
    ensures SiteHint(url1) == SiteHint(url2)
  {
  }

  lemma LowerAppend(a: string, b: string)
    ensures Lower(a + b) == Lower(a) + Lower(b)
  {
  }

  /** "google" written in any case anywhere in the URL selects Google's hint,
      even when "microsoft" occurs too. */
  lemma GoogleInAnyCase(a: string, g: string, b: string)
    requires Lower(g) == "google"
    ensures SiteHint(a + g + b) == GoogleHint
  {
    LowerAppend(a + g, b);
    LowerAppend(a, g);
    var l := Lower(a + g + b);
    assert l == Lower(a) + "google" + Lower(b);
    assert OccursAt(l, "google", |a|) by {
      assert l[|a|..|a| + 6] == "google";
    }
  }
}

=== FILE: gemini_ai.dfy ===
/**
 * The AI client: the response cleaning applied to the model's text and the
 * rule that any failure, in generation or in JSON parsing, becomes `None`.
 * Text generation and `json.loads` are oracles passed in as functions.
 */
module GeminiAi {
  import opened Wrappers
  import opened Text
  import opened Json

  /** The two fixed instructions the client sends with the page markup. */
  datatype Prompt = ListPagePrompt | DetailPagePrompt

  /** What `generate_content(...).text` gives: the response text, or an exception. */
  datatype Generation = Generated(text: string) | GenerationFailed

  const Fence: string := "```"
  const JsonFence: string := "```json"

  predicate HasFence(s: string) {
    Contains(s, Fence)
  }

  /** `text.strip().replace('```json', '').replace('```', '').strip()`. */
  function CleanResponse(text: string): (r: string)
    ensures Trimmed(r)
    ensures !HasFence(r)
  {
    var unfenced := RemoveFences(ReplaceAll(Strip(text), JsonFence, ""));
    NoFenceAfterRemoval(ReplaceAll(Strip(text), JsonFence, ""));
    StripKeepsNoFence(unfenced);
    Strip(unfenced)
  }

  /** One call to the model, as `get_selectors_from_gemini` and
      `get_job_detail_selectors_from_gemini` make it: a failed generation or a
      failed parse gives `None`; otherwise the parser's value is returned as it
      is, and the parser only ever sees fence-free, trimmed text. */
  function Ask(prompt: Prompt, markup: string,
               generate: (Prompt, string) -> Generation,
               parse: string -> Option<Json>): (r: Option<Json>)
    ensures generate(prompt, markup).GenerationFailed? ==> r.None?
    ensures generate(prompt, markup).Generated? ==>
              r == parse(CleanResponse(generate(prompt, markup).text))
    ensures r.Some? ==> exists t :: Trimmed(t) && !HasFence(t) && parse(t) == r
  {
    match generate(prompt, markup)
    case GenerationFailed => None
    case Generated(text) => parse(CleanResponse(text))
  }

  /** `get_selectors_from_gemini`. */
  function SelectorsFromAi(markup: string, generate: (Prompt, string) -> Generation,
                           parse: string -> Option<Json>): (r: Option<Json>)
    ensures generate(ListPagePrompt, markup).GenerationFailed? ==> r.None?
    ensures generate(ListPagePrompt, markup).Generated? ==>
              r == parse(CleanResponse(generate(ListPagePrompt, markup).text))
  {
    Ask(ListPagePrompt, markup, generate, parse)
  }

  /** `get_job_detail_selectors_from_gemini`. */
  function DetailSelectorsFromAi(markup: string, generate: (Prompt, string) -> Generation,
                                 parse: string -> Option<Json>): (r: Option<Json>)
    ensures generate(DetailPagePrompt, markup).GenerationFailed? ==> r.None?
    ensures generate(DetailPagePrompt, markup).Generated? ==>
              r == parse(CleanResponse(generate(DetailPagePrompt, markup).text))
  {
    Ask(DetailPagePrompt, markup, generate, parse)
  }

  // ---------------------------------------------------------------------------
  // Why no fence survives: removing "```" in one left-to-right pass can never
  // leave three backticks in a row.

  function RemoveFences(s: string): string {
    ReplaceAll(s, Fence, "")
  }

  /** A string that does not start with a backtick keeps its first character. */
  lemma KeepsFirst(s: string)
    requires |s| > 0 && s[0] != '`'
    ensures |RemoveFences(s)| > 0 && RemoveFences(s)[0] == s[0]
  {
    if |s| >= 3 {
      assert s[..3] != Fence;
    }
  }

  /** A lone backtick followed by another character keeps both. */
  lemma KeepsLoneTick(s: string)
    requires |s| >= 2 && s[0] == '`' && s[1] != '`'
    ensures |RemoveFences(s)| >= 2 && RemoveFences(s)[0] == '`' && RemoveFences(s)[1] == s[1]
  {
    if |s| >= 3 {
      assert s[..3] != Fence;
      KeepsFirst(s[1..]);
    }
  }

  /** Putting one character in front shifts every later match by one. */
  lemma ShiftOccurs(c: char, x: string, i: int)
    requires i > 0
    ensures OccursAt([c] + x, Fence, i) <==> OccursAt(x, Fence, i - 1)
  {
    if i + 3 <= |x| + 1 {
      assert ([c] + x)[i..i + 3] == x[i - 1..i + 2];
    }
  }

  /** After removal, no fence starts at the front of a string that did not
      itself start with one. */
  lemma FenceFreeFront(s: string)
    requires |s| >= 3 && s[..3] != Fence
    ensures !OccursAt(RemoveFences(s), Fence, 0)
  {
    var r := RemoveFences(s);
    assert r == [s[0]] + RemoveFences(s[1..]);
    if s[0] != '`' {
      assert r[0] != '`';
    } else if s[1] != '`' {
      KeepsFirst(s[1..]);
      assert r[1] == s[1];
    } else {
      assert s[2] != '`';
      KeepsLoneTick(s[1..]);
      assert r[2] == s[2];
    }
  }

  lemma {:induction false} NoFenceAfterRemoval(s: string)
    ensures !HasFence(RemoveFences(s))
    decreases |s|
  {
    var r := RemoveFences(s);
    if |s| < 3 {
      assert |r| < 3;
    } else if s[..3] == Fence {
      assert r == RemoveFences(s[3..]);
      NoFenceAfterRemoval(s[3..]);
    } else {
      var x := RemoveFences(s[1..]);
      assert r == [s[0]] + x;
      NoFenceAfterRemoval(s[1..]);
      FenceFreeFront(s);
      forall i | 0 < i <= |r| - 3
        ensures !OccursAt(r, Fence, i)
      {
        ShiftOccurs(s[0], x, i);
      }
    }
  }

  lemma StripKeepsNoFence(s: string)
    requires !HasFence(s)
    ensures !HasFence(Strip(s))
  {
    var r := Strip(s);
    NotContainedInSlice(s, Fence, LeadingSpaces(s), LeadingSpaces(s) + |r|);
  }

  // ---------------------------------------------------------------------------
  // Properties of the cleaning.

  /** Cleaning is idempotent. */
  lemma CleanIdempotent(text: string)
    ensures CleanResponse(CleanResponse(text)) == CleanResponse(text)
  {
    var c := CleanResponse(text);
    StripTrimmed(c);
    NoJsonFenceWithoutFence(c);
    ReplaceAbsent(c, JsonFence, "");
    ReplaceAbsent(c, Fence, "");
  }

  lemma NoJsonFenceWithoutFence(s: string)
    requires !HasFence(s)
    ensures !Contains(s, JsonFence)
  {
    if Contains(s, JsonFence) {
      var i :| 0 <= i <= |s| - |JsonFence| && OccursAt(s, JsonFence, i);
      assert s[i..i + 3] == JsonFence[..3];
      assert OccursAt(s, Fence, i);
    }
  }

  /** Text without a fence and without surrounding whitespace passes unchanged. */
  lemma CleanPassesThrough(text: string)
    requires Trimmed(text) && !HasFence(text)
    ensures CleanResponse(text) == text
  {
    StripTrimmed(text);
    NoJsonFenceWithoutFence(text);
    ReplaceAbsent(text, JsonFence, "");
    ReplaceAbsent(text, Fence, "");
  }

  /** Removing every fence from a lone fence leaves nothing. */
  lemma RemoveLoneFence()
    ensures RemoveFences(Fence) == ""
  {
    ReplaceAtFront([], Fence, "");
    assert Fence + [] == Fence;
  }

  /** The cleaning, one stage at a time. */
  lemma CleanStages(text: string, stripped: string, untagged: string, unfenced: string)
    requires Strip(text) == stripped
    requires ReplaceAll(stripped, JsonFence, "") == untagged
    requires RemoveFences(untagged) == unfenced
    ensures CleanResponse(text) == Strip(unfenced)
  {
  }

  lemma UntagJsonFence(body: string)
    requires '`' !in body
    ensures ReplaceAll(JsonFence + "\n" + body + "\n" + Fence, JsonFence, "") == "\n" + body + "\n" + Fence
  {
    var tail := "\n" + body + "\n";
    assert '`' !in tail;
    assert JsonFence + "\n" + body + "\n" + Fence == JsonFence + (tail + Fence);
    ReplaceAtFront(tail + Fence, JsonFence, "");
    ReplaceAfterPrefix(tail, Fence, JsonFence, "");
    ReplaceShort(Fence, JsonFence, "");
  }

  lemma UnfenceTail(tail: string)
    requires '`' !in tail
    ensures RemoveFences(tail + Fence) == tail
  {
    ReplaceAfterPrefix(tail, Fence, Fence, "");
    RemoveLoneFence();
    assert tail + "" == tail;
  }

  /** A body wrapped in a "```json" fence, as models often reply, comes out as
      the body alone. */
  lemma CleanUnwrapsJsonFence(body: string)
    requires Trimmed(body) && '`' !in body
    ensures CleanResponse(JsonFence + "\n" + body + "\n" + Fence) == body
  {
    var reply := JsonFence + "\n" + body + "\n" + Fence;
    var tail := "\n" + body + "\n";
    assert reply[0] == '`' && reply[|reply| - 1] == '`';
    StripTrimmed(reply);
    UntagJsonFence(body);
    assert '`' !in tail;
    UnfenceTail(tail);
    CleanStages(reply, reply, tail + Fence, tail);
    if |body| > 0 {
      StripPadded("\n", body, "\n");
    } else {
      StripAllSpace(tail);
    }
  }

  lemma NoTagInPlainFence(body: string)
    requires |body| > 0 && '`' !in body
    requires !StartsWith(body, "json")
    ensures !Contains(Fence + body + Fence, JsonFence)
  {
    var reply := Fence + body + Fence;
    forall i | 0 <= i <= |reply| - |JsonFence|
      ensures !OccursAt(reply, JsonFence, i)
    {
      if i == 0 {
        if |body| >= 4 {
          assert body[..4] != "json";
          assert JsonFence[3..7] == "json";
          assert reply[0..7][3..7] == body[..4];
        } else {
          assert reply[3 + |body|] == '`' != JsonFence[3 + |body|];
        }
      } else if i < 3 {
        assert reply[3] == body[0] != '`';
        assert reply[i..i + 7][3 - i] != JsonFence[3 - i];
      } else {
        assert reply[i] != '`';
      }
    }
  }

  /** A reply fenced without a tag loses its fences, provided the body does
      not itself begin with the lower-case tag. */
  lemma CleanUnwrapsPlainFence(body: string)
    requires Trimmed(body) && |body| > 0 && '`' !in body
    requires !StartsWith(body, "json")
    ensures CleanResponse(Fence + body + Fence) == body
  {
    var reply := Fence + body + Fence;
    assert reply[0] == '`' && reply[|reply| - 1] == '`';
    StripTrimmed(reply);
    NoTagInPlainFence(body);
    ReplaceAbsent(reply, JsonFence, "");
    UnfencePlain(body);
    CleanStages(reply, reply, reply, body);
    StripTrimmed(body);
  }

  lemma UnfencePlain(body: string)
    requires '`' !in body
    ensures RemoveFences(Fence + body + Fence) == body
  {
    assert Fence + body + Fence == Fence + (body + Fence);
    ReplaceAtFront(body + Fence, Fence, "");
    UnfenceTail(body);
  }

  /** Only the lower-case tag is removed: an upper-case "JSON" tag survives. */
  lemma UpperCaseTagSurvives()
    ensures CleanResponse("```JSON{}```") == "JSON{}"
  {
    assert "```JSON{}```" == Fence + "JSON{}" + Fence;
    assert !StartsWith("JSON{}", "json") by {
      assert "JSON{}"[0] != "json"[0];
    }
    CleanUnwrapsPlainFence("JSON{}");
  }
}

=== FILE: job_details.dfy ===
/**
 * `extract_job_details`: one visit to a job's detail page, reading one text
 * per key of the detail-selector object. The browser is replaced by what the
 * page shows for each selector.
 */
module JobDetails {
  import opened Wrappers
  import opened Text
  import opened Json

  /** What the first element a selector finds offers: not visible (or no such
      element), visible with its inner text, or an exception from the lookup. */
  datatype DetailField = Invisible | Shown(text: string) | LookupRaises

  /** A detail page: whether navigation to it succeeded, and what each selector
      finds there. A selector the map does not mention finds no element. */
  datatype DetailPage = DetailPage(reachable: bool, fields: map<string, DetailField>)

  function Observe(page: DetailPage, selector: string): DetailField {
    if selector in page.fields then page.fields[selector] else Invisible
  }

  /** The text a selector yields: the stripped text of a visible element when
      the selector is a non-empty string and that text is non-empty. */
  predicate Yields(page: DetailPage, selector: Json, text: string) {
    selector.JString? && Truthy(selector)
    && Observe(page, selector.s).Shown?
    && text == Strip(Observe(page, selector.s).text) && |text| > 0
  }

  /** The value stored for one key. A selector that is not a string (a number,
      an object) makes the lookup raise and so gives `None` like any other
      failure. */
  function FieldValue(page: DetailPage, selector: Json): (v: Option<string>)
    ensures v.Some? ==> Yields(page, selector, v.value)
    ensures (exists t :: Yields(page, selector, t)) ==> v.Some?
  {
    if Truthy(selector) && selector.JString? then
      match Observe(page, selector.s)
      case Shown(text) => if |Strip(text)| > 0 then Some(Strip(text)) else None
      case _ => None
    else None
  }

  /** `extract_job_details(page, job_url, detail_selectors)`. Navigation failure
      and a selector value without `.items()` both end in the outer handler and
      give `{}`; otherwise every key of the selector object gets a value, and
      no other key appears. */
  function ExtractJobDetails(page: DetailPage, selectors: Json): (r: map<string, Option<string>>)
    ensures !page.reachable || !selectors.JObject? ==> r == map[]
    ensures page.reachable && selectors.JObject? ==> r.Keys == selectors.fields.Keys
    ensures forall k | k in r :: r[k].Some? ==> Trimmed(r[k].value) && |r[k].value| > 0
    ensures forall k | k in r :: r[k].Some? <==> exists t :: Yields(page, selectors.fields[k], t)
    ensures forall k | k in r :: r[k].Some? ==> Yields(page, selectors.fields[k], r[k].value)
  {
    if page.reachable && selectors.JObject? then
      map k | k in selectors.fields :: FieldValue(page, selectors.fields[k])
    else map[]
  }

  /** A null, false, zero or empty selector gives `None` whatever the page shows. */
  lemma FalsySelectorGivesNone(page: DetailPage, selectors: Json, key: string)
    requires page.reachable && selectors.JObject? && key in selectors.fields
    requires !Truthy(selectors.fields[key])
    ensures ExtractJobDetails(page, selectors)[key] == None
  {
  }

  /** Only what the page shows for the selectors in use matters: two pages that
      agree on those give the same details. */
  lemma DetailsDependOnSelectorsOnly(p1: DetailPage, p2: DetailPage, selectors: Json)
    requires p1.reachable == p2.reachable && selectors.JObject?
    requires forall k | k in selectors.fields && selectors.fields[k].JString? ::
               Observe(p1, selectors.fields[k].s) == Observe(p2, selectors.fields[k].s)
    ensures ExtractJobDetails(p1, selectors) == ExtractJobDetails(p2, selectors)
  {
    if p1.reachable {
      forall k | k in selectors.fields
        ensures FieldValue(p1, selectors.fields[k]) == FieldValue(p2, selectors.fields[k])
      {
      }
    }
  }

  /** Stripping an extracted value again changes nothing. */
  lemma ValuesAreStripped(page: DetailPage, selectors: Json, key: string)
    requires key in ExtractJobDetails(page, selectors)
    requires ExtractJobDetails(page, selectors)[key].Some?
    ensures Strip(ExtractJobDetails(page, selectors)[key].value) == ExtractJobDetails(page, selectors)[key].value
  {
    StripTrimmed(ExtractJobDetails(page, selectors)[key].value);
  }
}

=== FILE: job_id.dfy ===
/**
 * `extract_job_id`: the job identifier of a link element, taken from the first
 * of seven URL patterns that matches its `href`, else from the first non-empty
 * of four attributes, else from its text when that text is all digits.
 * The regular expressions are written out as leftmost-match functions over
 * ASCII (`\w` is `[A-Za-z0-9_]`, `\d` is `[0-9]`).
 */
module JobId {
  import opened Wrappers
  import opened Text

  predicate IsWordChar(c: char) {
    IsAsciiAlnum(c) || c == '_'
  }

  /** The character classes the patterns repeat with `+`. */
  datatype CharClass = Word | Digit

  predicate InClass(cls: CharClass, c: char) {
    match cls
    case Word => IsWordChar(c)
    case Digit => IsAsciiDigit(c)
  }

  /** Where a greedy `cls*` starting at `i` stops. */
  function RunEnd(s: string, i: nat, cls: CharClass): (j: nat)
    requires i <= |s|
    ensures i <= j <= |s|
    ensures forall k | i <= k < j :: InClass(cls, s[k])
    ensures j < |s| ==> !InClass(cls, s[j])
    decreases |s| - i
  {
    if i < |s| && InClass(cls, s[i]) then RunEnd(s, i + 1, cls) else i
  }

  /** A greedy group `(cls+)` starting at `k`: the longest run, if non-empty. */
  function Group(s: string, k: nat, cls: CharClass): (r: Option<string>)
    requires k <= |s|
    ensures r.Some? <==> k < |s| && InClass(cls, s[k])
    ensures r.Some? ==> r.value == s[k..RunEnd(s, k, cls)]
  {
    var j := RunEnd(s, k, cls);
    if j > k then Some(s[k..j]) else None
  }

  /** The seven `id_patterns`, in their listed order. */
  datatype Pattern =
    | PathSegment(name: string)  // "/name[s]?/(\w+)"
    | QueryParam(name: string)   // "name=(\w+)"
    | TrailingNumber             // "/(\d+)/?$"

  const IdPatterns: seq<Pattern> := [
    PathSegment("job"), PathSegment("position"), PathSegment("career"),
    QueryParam("id"), QueryParam("jobId"), QueryParam("positionId"),
    TrailingNumber
  ]

  /** Python's `$`: the end of the text, or just before a final newline. */
  predicate AtEnd(s: string, p: nat) {
    p == |s| || (p == |s| - 1 && s[p] == '\n')
  }

  /** The group a pattern captures when a match starts at position `i`, with
      the regular-expression engine's backtracking written out: the optional
      `s` is tried first, `\w+` and `\d+` are greedy. */
  function MatchAt(p: Pattern, s: string, i: nat): (r: Option<string>)
    requires i <= |s|
    ensures r.Some? ==> |r.value| > 0 && forall k | 0 <= k < |r.value| :: IsWordChar(r.value[k])
    ensures r.Some? && p.TrailingNumber? ==> IsDigits(r.value)
  {
    match p
    case PathSegment(name) =>
      var plural := "/" + name + "s/";
      var singular := "/" + name + "/";
      if OccursAt(s, plural, i) && Group(s, i + |plural|, Word).Some? then
        Group(s, i + |plural|, Word)
      else if OccursAt(s, singular, i) then Group(s, i + |singular|, Word)
      else None
    case QueryParam(name) =>
      var key := name + "=";
      if OccursAt(s, key, i) then Group(s, i + |key|, Word) else None
    case TrailingNumber =>
      if i < |s| && s[i] == '/' then
        var j := RunEnd(s, i + 1, Digit);
        if j > i + 1 && (AtEnd(s, j) || (j < |s| && s[j] == '/' && AtEnd(s, j + 1))) then
          Some(s[i + 1..j])
        else None
      else None
  }

  /** `re.search` from position `i` on: the group of the leftmost match. */
  function SearchFrom(p: Pattern, s: string, i: nat): (r: Option<string>)
    requires i <= |s|
    ensures r.Some? ==> |r.value| > 0
    ensures r.None? <==> forall k | i <= k <= |s| :: MatchAt(p, s, k).None?
    ensures r.Some? ==> exists k | i <= k <= |s| ::
              MatchAt(p, s, k) == r && forall m | i <= m < k :: MatchAt(p, s, m).None?
    decreases |s| - i
  {
    var here := MatchAt(p, s, i);
    if here.Some? then here
    else if i == |s| then None
    else
      var rest := SearchFrom(p, s, i + 1);
      assert rest.Some? ==> exists k | i + 1 <= k <= |s| ::
        MatchAt(p, s, k) == rest && forall m | i + 1 <= m < k :: MatchAt(p, s, m).None?;
      rest
  }

  function Search(p: Pattern, s: string): Option<string> {
    SearchFrom(p, s, 0)
  }

  /** Pattern `p` matches somewhere in `s`. */
  predicate Matches(p: Pattern, s: string) {
    exists k | 0 <= k <= |s| :: MatchAt(p, s, k).Some?
  }

  /** The group of the first pattern in `pats` that matches `href`. */
  function FirstPatternMatch(pats: seq<Pattern>, href: string): (r: Option<string>)
    ensures r.Some? ==> |r.value| > 0
    ensures r.None? <==> forall n | 0 <= n < |pats| :: !Matches(pats[n], href)
    ensures r.Some? ==> exists n | 0 <= n < |pats| ::
              Matches(pats[n], href) && r == Search(pats[n], href) &&
              forall m | 0 <= m < n :: !Matches(pats[m], href)
  {
    if |pats| == 0 then None
    else
      var found := Search(pats[0], href);
      if found.Some? then found
      else
        var rest := FirstPatternMatch(pats[1..], href);
        assert forall n | 1 <= n < |pats| :: pats[n] == pats[1..][n - 1];
        assert !Matches(pats[0], href);
        rest
  }

  /** What the element offers: its attributes, the attribute names whose
      `get_attribute` raises, and the outcome of `inner_text()`. */
  datatype Elem = Elem(attributes: map<string, string>, innerText: Probe<string>, raisingReads: set<string>)

  /** `element.get_attribute(name)` when it does not raise: `None` when the
      attribute is absent. */
  function GetAttribute(e: Elem, name: string): Option<string> {
    if name in e.attributes then Some(e.attributes[name]) else None
  }

  /** Whether `element.get_attribute(name)` raises. */
  predicate ReadRaises(e: Elem, name: string) {
    name in e.raisingReads
  }

  /** Python truthiness of an optional string. */
  predicate Present(v: Option<string>) {
    v.Some? && |v.value| > 0
  }

  const IdAttributes: seq<string> := ["data-id", "data-job-id", "data-position-id", "id"]

  /** The value of the first attribute in `names` that is present and non-empty,
      when no read raises. */
  function FirstNonEmptyAttribute(e: Elem, names: seq<string>): (r: Option<string>)
    ensures r.None? <==> forall n | 0 <= n < |names| :: !Present(GetAttribute(e, names[n]))
    ensures r.Some? ==> exists n | 0 <= n < |names| ::
              r == GetAttribute(e, names[n]) && Present(r) &&
              forall m | 0 <= m < n :: !Present(GetAttribute(e, names[m]))
  {
    if |names| == 0 then None
    else if Present(GetAttribute(e, names[0])) then GetAttribute(e, names[0])
    else
      var rest := FirstNonEmptyAttribute(e, names[1..]);
      assert forall n | 1 <= n < |names| :: names[n] == names[1..][n - 1];
      rest
  }

  /** The attribute loop with its exceptions: reads go in order and stop at the
      first non-empty value; a read that raises before that gives `Raises`. */
  function FirstAttribute(e: Elem, names: seq<string>): (r: Probe<Option<string>>)
    ensures r.Gives? ==> r.value == FirstNonEmptyAttribute(e, names)
    ensures r == Gives(None) ==> forall n | 0 <= n < |names| :: !ReadRaises(e, names[n])
    ensures (forall n | 0 <= n < |names| :: !ReadRaises(e, names[n])) ==> r.Gives?
    ensures r.Raises? <==> exists n | 0 <= n < |names| ::
              ReadRaises(e, names[n]) && forall m | 0 <= m < n :: !Present(GetAttribute(e, names[m]))
  {
    if |names| == 0 then Gives(None)
    else if ReadRaises(e, names[0]) then Raises
    else if Present(GetAttribute(e, names[0])) then Gives(GetAttribute(e, names[0]))
    else
      var rest := FirstAttribute(e, names[1..]);
      assert forall n | 1 <= n < |names| :: names[n] == names[1..][n - 1];
      if rest.Raises? then
        var n :| 0 <= n < |names[1..]| && ReadRaises(e, names[1..][n])
                 && forall m | 0 <= m < n :: !Present(GetAttribute(e, names[1..][m]));
        assert ReadRaises(e, names[n + 1]);
        rest
      else rest
  }

  /** The identifier the `href` yields, when it is present and some pattern matches. */
  function IdFromHref(e: Elem): Option<string> {
    var href := GetAttribute(e, "href");
    if Present(href) then FirstPatternMatch(IdPatterns, href.value) else None
  }

  /** `extract_job_id`. Every exception, from an attribute read or from
      `inner_text()`, gives `None`. */
  function ExtractJobId(e: Elem): (r: Option<string>)
    ensures r.Some? ==> |r.value| > 0
    // 0. reading the href raises
    ensures ReadRaises(e, "href") ==> r.None?
    // 1. a matching URL pattern decides, and its group is a run of word characters
    ensures !ReadRaises(e, "href") && IdFromHref(e).Some? ==> r == IdFromHref(e)
    // 2. otherwise the attributes in order: a raising read gives None, else the first non-empty one
    ensures !ReadRaises(e, "href") && IdFromHref(e).None? && FirstAttribute(e, IdAttributes).Raises? ==>
              r.None?
    ensures !ReadRaises(e, "href") && IdFromHref(e).None? && FirstAttribute(e, IdAttributes).Gives?
            && FirstNonEmptyAttribute(e, IdAttributes).Some? ==>
              r == FirstNonEmptyAttribute(e, IdAttributes)
    // 3. otherwise only an all-digit stripped text is accepted
    ensures !ReadRaises(e, "href") && IdFromHref(e).None? && FirstAttribute(e, IdAttributes).Gives?
            && FirstNonEmptyAttribute(e, IdAttributes).None? ==>
              (r.Some? <==> e.innerText.Gives? && IsDigits(Strip(e.innerText.value))) &&
              (r.Some? ==> r.value == Strip(e.innerText.value))
  {
    if ReadRaises(e, "href") then None
    else
      var fromHref := IdFromHref(e);
      if fromHref.Some? then
        fromHref
      else match FirstAttribute(e, IdAttributes)
        case Raises => None
        case Gives(Some(v)) => Some(v)
        case Gives(None) =>
          match e.innerText
          case Raises => None
          case Gives(text) =>
            var t := Strip(text);
            if |t| > 0 && IsDigits(t) then Some(t) else None
  }

  // ---------------------------------------------------------------------------
  // Properties.

  /** When a URL pattern matches, attributes and text are never consulted: two
      elements with the same `href` get the same identifier. */
  lemma HrefDecidesAlone(e1: Elem, e2: Elem)
    requires GetAttribute(e1, "href") == GetAttribute(e2, "href")
    requires ReadRaises(e1, "href") == ReadRaises(e2, "href")
    requires IdFromHref(e1).Some?
    ensures ExtractJobId(e1) == ExtractJobId(e2)
  {
  }

  /** An identifier taken from the URL is a non-empty run of word characters. */
  lemma {:induction false} HrefIdIsWord(pats: seq<Pattern>, href: string)
    requires FirstPatternMatch(pats, href).Some?
    ensures forall k | 0 <= k < |FirstPatternMatch(pats, href).value| ::
              IsWordChar(FirstPatternMatch(pats, href).value[k])
  {
    var r := FirstPatternMatch(pats, href);
    var n :| 0 <= n < |pats| && Matches(pats[n], href) && r == Search(pats[n], href);
    var k :| 0 <= k <= |href| && MatchAt(pats[n], href, k) == r;
  }

  /** The first pattern matching at the very start of the URL wins, whatever
      attributes the element carries. */
  lemma UrlBeatsDataAttribute()
    ensures ExtractJobId(Elem(map["href" := "/jobs/12345", "data-job-id" := "999"], Gives("x"), {}))
            == Some("12345")
  {
    var s := "/jobs/12345";
    assert "/" + "job" + "s/" == "/jobs/";
    assert OccursAt(s, "/jobs/", 0) by {
      assert s[0..6] == "/jobs/";
    }
    assert RunEnd(s, 6, Word) == 11;
    assert s[6..11] == "12345";
    assert Group(s, 6, Word) == Some("12345");
    assert MatchAt(PathSegment("job"), s, 0) == Some("12345");
    assert Search(IdPatterns[0], s) == Some("12345");
  }

  /** Python's `$` also matches before a final newline, so a trailing newline
      does not stop the last pattern. */
  lemma TrailingNumberBeforeNewline()
    ensures MatchAt(TrailingNumber, "/123\n", 0) == Some("123")
  {
    var s := "/123\n";
    assert RunEnd(s, 1, Digit) == 4;
    assert AtEnd(s, 4);
    assert s[1..4] == "123";
  }

  /** A trailing slash is allowed after the number. */
  lemma TrailingNumberWithSlash()
    ensures MatchAt(TrailingNumber, "/42/", 0) == Some("42")
  {
    var s := "/42/";
    assert RunEnd(s, 1, Digit) == 3;
    assert AtEnd(s, 4);
    assert s[1..3] == "42";
  }

  /** Without a usable `href` the first non-empty attribute wins; an empty
      `data-id` is skipped. */
  lemma EmptyAttributeSkipped()
    ensures ExtractJobId(Elem(map["data-id" := "", "data-job-id" := "J-7", "id" := "x"], Gives("12"), {}))
            == Some("J-7")
  {
    var e := Elem(map["data-id" := "", "data-job-id" := "J-7", "id" := "x"], Gives("12"), {});
    assert "href" !in e.attributes by {
      assert e.attributes.Keys == {"data-id", "data-job-id", "id"};
      assert "href"[0] != "data-id"[0] && "href"[0] != "id"[0];
    }
    assert IdFromHref(e) == None;
    assert IdAttributes[0] == "data-id" && IdAttributes[1..][0] == "data-job-id";
    assert !Present(GetAttribute(e, IdAttributes[0]));
    assert Present(GetAttribute(e, IdAttributes[1..][0]));
    assert FirstNonEmptyAttribute(e, IdAttributes[1..]) == Some("J-7");
    assert FirstNonEmptyAttribute(e, IdAttributes) == Some("J-7");
  }

  /** A read that raises ends the search with `None`, even when a later
      attribute holds a value. */
  lemma RaisingAttributeGivesNone()
    ensures ExtractJobId(Elem(map["data-job-id" := "J-7"], Gives("12"), {"data-id"})) == None
  {
    var e := Elem(map["data-job-id" := "J-7"], Gives("12"), {"data-id"});
    assert !ReadRaises(e, "href") && "href" !in e.attributes by {
      assert "href"[0] != "data-id"[0] && "href"[0] != "data-job-id"[0];
    }
    assert IdFromHref(e) == None;
    assert IdAttributes[0] == "data-id";
    assert FirstAttribute(e, IdAttributes) == Raises;
  }

  /** Text that is all digits once stripped is accepted, stripped. */
  lemma DigitTextAccepted()
    ensures ExtractJobId(Elem(map[], Gives(" 42 "), {})) == Some("42")
  {
    var e := Elem(map[], Gives(" 42 "), {});
    NothingButText(e);
    StripPadded(" ", "42", " ");
    assert " " + "42" + " " == " 42 ";
    assert IsDigits("42");
  }

  /** Text with a character other than a digit is refused. */
  lemma OtherTextRefused()
    ensures ExtractJobId(Elem(map[], Gives("42a"), {})) == None
  {
    var e := Elem(map[], Gives("42a"), {});
    NothingButText(e);
    StripTrimmed("42a");
    assert !IsAsciiDigit("42a"[2]);
  }

  /** An element without attributes has neither a URL nor an attribute id. */
  lemma NothingButText(e: Elem)
    requires e.attributes == map[]
    ensures IdFromHref(e).None? && FirstNonEmptyAttribute(e, IdAttributes).None?
  {
    assert forall n | 0 <= n < |IdAttributes| :: GetAttribute(e, IdAttributes[n]).None?;
  }

  /** Path patterns and the trailing-number pattern need a '/' to match. */
  lemma NoSlashNoPathMatch(p: Pattern, s: string)
    requires p.PathSegment? || p.TrailingNumber?
    requires '/' !in s
    ensures Search(p, s).None?
  {
    forall k | 0 <= k <= |s| ensures MatchAt(p, s, k).None? {
      NoSlashNoMatchAt(p, s, k);
    }
  }

  lemma NoSlashNoMatchAt(p: Pattern, s: string, k: nat)
    requires p.PathSegment? || p.TrailingNumber?
    requires '/' !in s && k <= |s|
    ensures MatchAt(p, s, k).None?
  {
    if p.PathSegment? {
      var plural := "/" + p.name + "s/";
      var singular := "/" + p.name + "/";
      if k + |plural| <= |s| {
        assert s[k..k + |plural|][0] == s[k] != plural[0];
      }
      if k + |singular| <= |s| {
        assert s[k..k + |singular|][0] == s[k] != singular[0];
      }
    } else if k < |s| {
      assert s[k] != '/';
    }
  }

  const MixedQuery: string := "?jobId=12&uid=7"

  lemma MixedQueryIdParam()
    ensures Search(QueryParam("id"), MixedQuery) == Some("7")
  {
    var s := MixedQuery;
    var p := QueryParam("id");
    assert "id" + "=" == "id=";
    forall k | 0 <= k < 11 ensures MatchAt(p, s, k).None? {
      if k == 4 {
        assert s[k..k + 3][0] != 'i';
      } else {
        assert s[k..k + 3][2] != '=';
      }
    }
    assert s[11..14] == "id=";
    assert RunEnd(s, 14, Word) == 15;
    assert s[14..15] == "7";
    assert MatchAt(p, s, 11) == Some("7");
  }

  lemma FirstPatternMatchStep(pats: seq<Pattern>, href: string)
    requires |pats| > 0
    ensures Search(pats[0], href).Some? ==> FirstPatternMatch(pats, href) == Search(pats[0], href)
    ensures Search(pats[0], href).None? ==> FirstPatternMatch(pats, href) == FirstPatternMatch(pats[1..], href)
  {
  }

  /** Pattern order beats position in the URL: `id=` is tried before `jobId=`,
      and "uid=7" contains it, so a `jobId` earlier in the URL loses. */
  lemma PatternOrderBeatsPosition()
    ensures FirstPatternMatch(IdPatterns, MixedQuery) == Some("7")
  {
    var s := MixedQuery;
    assert '/' !in s;
    var p0 := IdPatterns;
    var p1 := p0[1..];
    var p2 := p1[1..];
    var p3 := p2[1..];
    NoSlashNoPathMatch(p0[0], s);
    NoSlashNoPathMatch(p1[0], s);
    NoSlashNoPathMatch(p2[0], s);
    MixedQueryIdParam();
    assert p3[0] == QueryParam("id");
    FirstPatternMatchStep(p3, s);
    FirstPatternMatchStep(p2, s);
    FirstPatternMatchStep(p1, s);
    FirstPatternMatchStep(p0, s);
  }
}

=== FILE: json.dfy ===
/** The JSON values `json.loads` can produce, and Python's truthiness on them. */
module Json {

  /** Numbers are modelled as integers; floating point is not part of the model. */
  datatype Json =
    | JNull
    | JBool(b: bool)
    | JNumber(n: int)
    | JString(s: string)
    | JArray(items: seq<Json>)
    | JObject(fields: map<string, Json>)

  /** `bool(v)` in Python: `None`, `False`, `0`, `""`, `[]` and `{}` are false. */
  predicate Truthy(v: Json) {
    match v
    case JNull => false
    case JBool(b) => b
    case JNumber(n) => n != 0
    case JString(s) => |s| > 0
    case JArray(items) => |items| > 0
    case JObject(fields) => |fields| > 0
  }
}

=== FILE: links.dfy ===
/**
 * The link absolutisation in `scrape_mode`: a relative `href` is prefixed with
 * `scheme//host`, taken as fields 0 and 2 of the page URL split on '/'.
 */
module Links {
  import opened Wrappers
  import opened Text

  /** `s.split(sep)`: the fields between separators, at least one. */
  function Split(s: string, sep: char): (fields: seq<string>)
    ensures |fields| >= 1
    ensures forall k | 0 <= k < |fields| :: sep !in fields[k]
    decreases |s|
  {
    if |s| == 0 then [""]
    else
      var rest := Split(s[1..], sep);
      if s[0] == sep then [""] + rest
      else [[s[0]] + rest[0]] + rest[1..]
  }

  /** `sep.join(fields)`. */
  function Join(fields: seq<string>, sep: char): string
    requires |fields| >= 1
  {
    if |fields| == 1 then fields[0] else fields[0] + [sep] + Join(fields[1..], sep)
  }

  /** Joining the fields gives back the text. */
  lemma {:induction false} JoinSplit(s: string, sep: char)
    ensures Join(Split(s, sep), sep) == s
    decreases |s|
  {
    if |s| > 0 {
      var rest := Split(s[1..], sep);
      JoinSplit(s[1..], sep);
      if s[0] == sep {
        assert Split(s, sep) == [""] + rest;
        assert ([""] + rest)[1..] == rest;
      } else {
        var f := [[s[0]] + rest[0]] + rest[1..];
        assert Split(s, sep) == f;
        if |rest| == 1 {
          assert Join(f, sep) == [s[0]] + rest[0];
        } else {
          assert f[1..] == rest[1..];
          assert Join(f, sep) == [s[0]] + (rest[0] + [sep] + Join(rest[1..], sep));
        }
        assert s == [s[0]] + s[1..];
      }
    }
  }

  /** Splitting joined separator-free fields gives the fields back. */
  lemma {:induction false} SplitJoin(fields: seq<string>, sep: char)
    requires |fields| >= 1
    requires forall k | 0 <= k < |fields| :: sep !in fields[k]
    ensures Split(Join(fields, sep), sep) == fields
    decreases |fields|
  {
    if |fields| == 1 {
      assert fields[0] + [] == fields[0];
      SplitField(fields[0], [], sep);
      assert Split([], sep) == [""];
      assert fields == [fields[0]];
    } else {
      SplitJoin(fields[1..], sep);
      var tail := Join(fields[1..], sep);
      assert Join(fields, sep) == fields[0] + ([sep] + tail);
      SplitField(fields[0], [sep] + tail, sep);
      assert Split([sep] + tail, sep) == [""] + fields[1..] by {
        assert ([sep] + tail)[0] == sep;
        assert ([sep] + tail)[1..] == tail;
      }
      assert Join(fields, sep) == fields[0] + ([sep] + tail);
      assert ([""] + fields[1..])[0] == "";
      assert ([""] + fields[1..])[1..] == fields[1..];
      assert fields[0] + "" == fields[0];
      assert fields == [fields[0]] + fields[1..];
    }
  }

  /** A separator-free field in front of text extends the first field. */
  lemma {:induction false} SplitField(f: string, t: string, sep: char)
    requires sep !in f
    ensures Split(f + t, sep) == [f + Split(t, sep)[0]] + Split(t, sep)[1..]
    decreases |f|
  {
    if |f| > 0 {
      var S := Split(t, sep);
      assert f[0] in f;
      assert (f + t)[0] == f[0] != sep;
      assert (f + t)[1..] == f[1..] + t;
      SplitField(f[1..], t, sep);
      var rest := Split(f[1..] + t, sep);
      assert Split(f + t, sep) == [[f[0]] + rest[0]] + rest[1..];
      assert f + S[0] == [f[0]] + (f[1..] + S[0]);
    } else {
      var S := Split(t, sep);
      assert f + t == t;
      assert f + S[0] == S[0];
      assert [S[0]] + S[1..] == S;
    }
  }

  /** `job_link.startswith('http')` keeps the link as it is; any other link is
      prefixed with fields 0 and 2 of the page URL, and a page URL with fewer
      than three fields raises (`IndexError`). */
  function Absolutise(pageUrl: string, href: string): (r: Probe<string>)
    ensures StartsWith(href, "http") ==> r == Gives(href)
    ensures !StartsWith(href, "http") ==>
              (r.Raises? <==> |Split(pageUrl, '/')| < 3)
    ensures r.Gives? ==> |href| <= |r.value| && r.value[|r.value| - |href|..] == href
  {
    if StartsWith(href, "http") then Gives(href)
    else
      var fields := Split(pageUrl, '/');
      if |fields| < 3 then Raises
      else
        var r := fields[0] + "//" + fields[2] + href;
        assert r[|r| - |href|..] == href;
        Gives(r)
  }

  /** For a page URL `scheme//host` followed by an empty path or one starting
      with '/', a relative link is resolved against the origin. */
  lemma AbsolutiseAgainstOrigin(scheme: string, host: string, path: string, href: string)
    requires '/' !in scheme && '/' !in host
    requires path == "" || path[0] == '/'
    requires !StartsWith(href, "http")
    ensures Absolutise(scheme + "//" + host + path, href) == Gives(scheme + "//" + host + href)
  {
    var url := scheme + "//" + host + path;
    var rest := Split(path, '/');
    assert url == scheme + ("/" + ("/" + (host + path)));
    SplitField(scheme, "/" + ("/" + (host + path)), '/');
    assert ("/" + ("/" + (host + path)))[1..] == "/" + (host + path);
    assert ("/" + (host + path))[1..] == host + path;
    SplitField(host, path, '/');
    if path == "" {
      assert Split(path, '/') == [""];
    } else {
      assert path == [path[0]] + path[1..];
    }
    var fields := Split(url, '/');
    assert fields[0] == scheme;
    assert fields[2] == host;
  }
}

=== FILE: markup.dfy ===
/**
 * The markup reduction done before markup is sent to the AI model: every
 * `script`, `style` and `svg` element is removed with its whole subtree
 * (`tag.decompose()` over `soup([...])`), then only the first `body` element is
 * kept (`soup.body`). The parsed document is an abstract tree; parsing and
 * serialisation are not modelled.
 */
module Markup {
  import opened Wrappers

  /** A parsed node: an element with its tag name and children, or text. */
  datatype Node = Element(name: string, children: seq<Node>) | Text(content: string)

  /** What a pre-order walk reports for one node. */
  datatype Label = Open(name: string) | Chars(content: string)

  predicate IsNoise(name: string) {
    name == "script" || name == "style" || name == "svg"
  }

  /** The pre-order sequence of labels of a forest (document order). */
  function Labels(ns: seq<Node>): seq<Label>
    decreases ns
  {
    if |ns| == 0 then []
    else NodeLabels(ns[0]) + Labels(ns[1..])
  }

  function NodeLabels(n: Node): seq<Label>
    decreases n
  {
    match n
    case Text(t) => [Chars(t)]
    case Element(name, children) => [Open(name)] + Labels(children)
  }

  /** No noise element anywhere in the forest. */
  predicate NoiseFree(ns: seq<Node>)
    decreases ns
  {
    forall i | 0 <= i < |ns| :: NodeNoiseFree(ns[i])
  }

  predicate NodeNoiseFree(n: Node)
    decreases n
  {
    match n
    case Text(_) => true
    case Element(name, children) => !IsNoise(name) && NoiseFree(children)
  }

  /** Removing every noise element together with its subtree. */
  function Prune(ns: seq<Node>): (r: seq<Node>)
    ensures NoiseFree(r)
    decreases ns
  {
    if |ns| == 0 then []
    else
      var rest := Prune(ns[1..]);
      match ns[0]
      case Text(_) => [ns[0]] + rest
      case Element(name, children) =>
        if IsNoise(name) then rest
        else
          var kept := Element(name, Prune(children));
          assert forall i | 1 <= i < |[kept] + rest| :: ([kept] + rest)[i] == rest[i - 1];
          [kept] + rest
  }

  // ---------------------------------------------------------------------------
  // Subsequences, to say that pruning keeps the remaining nodes in order.

  predicate IsSubsequence<T(==)>(a: seq<T>, b: seq<T>)
    decreases |b|
  {
    |a| == 0 || (|b| > 0 && ((a[0] == b[0] && IsSubsequence(a[1..], b[1..])) || IsSubsequence(a, b[1..])))
  }

  lemma {:induction false} SubsequenceRefl<T>(a: seq<T>)
    ensures IsSubsequence(a, a)
    decreases |a|
  {
    if |a| > 0 {
      SubsequenceRefl(a[1..]);
    }
  }

  lemma {:induction false} SubsequencePrepend<T>(a: seq<T>, b: seq<T>, p: seq<T>)
    requires IsSubsequence(a, b)
    ensures IsSubsequence(a, p + b)
    decreases |p|
  {
    if |p| > 0 {
      SubsequencePrepend(a, b, p[1..]);
      assert (p + b)[1..] == p[1..] + b;
    } else {
      assert p + b == b;
    }
  }

  lemma {:induction false} SubsequenceConcat<T>(a1: seq<T>, b1: seq<T>, a2: seq<T>, b2: seq<T>)
    requires IsSubsequence(a1, b1) && IsSubsequence(a2, b2)
    ensures IsSubsequence(a1 + a2, b1 + b2)
    decreases |b1|
  {
    if |a1| == 0 {
      assert a1 + a2 == a2;
      SubsequencePrepend(a2, b2, b1);
    } else {
      assert (b1 + b2)[1..] == b1[1..] + b2;
      if a1[0] == b1[0] && IsSubsequence(a1[1..], b1[1..]) {
        SubsequenceConcat(a1[1..], b1[1..], a2, b2);
        assert (a1 + a2)[1..] == a1[1..] + a2;
      } else {
        SubsequenceConcat(a1, b1[1..], a2, b2);
      }
    }
  }

  /** Pruning only deletes: the surviving nodes appear in the pruned document in
      the same relative order as in the original. */
  lemma {:induction false} PruneKeepsOrder(ns: seq<Node>)
    ensures IsSubsequence(Labels(Prune(ns)), Labels(ns))
    decreases ns
  {
    if |ns| > 0 {
      var rest := Prune(ns[1..]);
      PruneKeepsOrder(ns[1..]);
      match ns[0]
      case Text(_) =>
        SubsequenceRefl(NodeLabels(ns[0]));
        assert Labels([ns[0]] + rest) == NodeLabels(ns[0]) + Labels(rest) by {
          assert ([ns[0]] + rest)[1..] == rest;
        }
        SubsequenceConcat(NodeLabels(ns[0]), NodeLabels(ns[0]), Labels(rest), Labels(ns[1..]));
      case Element(name, children) =>
        if IsNoise(name) {
          SubsequencePrepend(Labels(rest), Labels(ns[1..]), NodeLabels(ns[0]));
        } else {
          var kept := Element(name, Prune(children));
          PruneKeepsOrder(children);
          assert Labels([kept] + rest) == NodeLabels(kept) + Labels(rest) by {
            assert ([kept] + rest)[1..] == rest;
          }
          SubsequenceRefl([Open(name)]);
          SubsequenceConcat([Open(name)], [Open(name)], Labels(Prune(children)), Labels(children));
          SubsequenceConcat(NodeLabels(kept), NodeLabels(ns[0]), Labels(rest), Labels(ns[1..]));
        }
    }
  }

  /** Pruning works node by node: a forest made of two parts prunes to the two
      parts pruned. */
  lemma {:induction false} PruneAppend(a: seq<Node>, b: seq<Node>)
    ensures Prune(a + b) == Prune(a) + Prune(b)
    decreases a
  {
    if |a| == 0 {
      assert a + b == b;
    } else {
      assert (a + b)[0] == a[0] && (a + b)[1..] == a[1..] + b;
      PruneAppend(a[1..], b);
    }
  }

  /** What pruning does to one node: text is kept as it is, a noise element
      disappears with its subtree, and any other element stays, with its
      children pruned. */
  lemma PruneNode(n: Node)
    ensures n.Text? ==> Prune([n]) == [n]
    ensures n.Element? && IsNoise(n.name) ==> Prune([n]) == []
    ensures n.Element? && !IsNoise(n.name) ==> Prune([n]) == [Element(n.name, Prune(n.children))]
  {
  }

  /** A forest with no noise is left as it is. */
  lemma {:induction false} PruneNoiseFree(ns: seq<Node>)
    requires NoiseFree(ns)
    ensures Prune(ns) == ns
    decreases ns
  {
    if |ns| > 0 {
      assert NodeNoiseFree(ns[0]);
      assert NoiseFree(ns[1..]) by {
        assert forall i | 0 <= i < |ns[1..]| :: ns[1..][i] == ns[i + 1];
      }
      PruneNoiseFree(ns[1..]);
      match ns[0]
      case Text(_) =>
        assert ns == [ns[0]] + ns[1..];
      case Element(name, children) =>
        PruneNoiseFree(children);
        assert ns == [ns[0]] + ns[1..];
    }
  }

  /** Pruning twice is pruning once. */
  lemma PruneIdempotent(ns: seq<Node>)
    ensures Prune(Prune(ns)) == Prune(ns)
  {
    PruneNoiseFree(Prune(ns));
  }

  // ---------------------------------------------------------------------------
  // Selecting the body.

  /** `soup.body`: the first `body` element in document order, if any. */
  function FindBody(ns: seq<Node>): (r: Option<Node>)
    ensures r.Some? ==> r.value.Element? && r.value.name == "body"
    ensures r.Some? <==> Open("body") in Labels(ns)
    decreases ns
  {
    if |ns| == 0 then None
    else
      LabelsSplit(ns);
      match ns[0]
      case Text(_) => FindBody(ns[1..])
      case Element(name, children) =>
        if name == "body" then Some(ns[0])
        else
          var inner := FindBody(children);
          if inner.Some? then inner else FindBody(ns[1..])
  }

  lemma LabelsSplit(ns: seq<Node>)
    requires |ns| > 0
    ensures Labels(ns) == NodeLabels(ns[0]) + Labels(ns[1..])
  {
  }

  /** A node somewhere in the forest, at any depth. */
  predicate Within(n: Node, ns: seq<Node>)
    decreases ns
  {
    exists i | 0 <= i < |ns| :: n == ns[i] || (ns[i].Element? && Within(n, ns[i].children))
  }

  /** The selected body is a node of the document. */
  lemma {:induction false} FindBodyWithin(ns: seq<Node>)
    requires FindBody(ns).Some?
    ensures Within(FindBody(ns).value, ns)
    decreases ns
  {
    match ns[0]
    case Text(_) =>
      FindBodyWithin(ns[1..]);
      WithinTail(FindBody(ns).value, ns);
    case Element(name, children) =>
      if name != "body" {
        if FindBody(children).Some? {
          FindBodyWithin(children);
          assert ns[0].Element? && Within(FindBody(ns).value, ns[0].children);
        } else {
          FindBodyWithin(ns[1..]);
          WithinTail(FindBody(ns).value, ns);
        }
      }
  }

  lemma WithinTail(n: Node, ns: seq<Node>)
    requires |ns| > 0 && Within(n, ns[1..])
    ensures Within(n, ns)
  {
    var i :| 0 <= i < |ns[1..]| && (n == ns[1..][i] || (ns[1..][i].Element? && Within(n, ns[1..][i].children)));
    assert ns[i + 1] == ns[1..][i];
  }

  /** Every node of a forest in document order (pre-order): a node, then the
      nodes below it, then its following siblings. */
  function Nodes(ns: seq<Node>): seq<Node>
    decreases ns
  {
    if |ns| == 0 then []
    else NodeAndBelow(ns[0]) + Nodes(ns[1..])
  }

  function NodeAndBelow(n: Node): seq<Node>
    decreases n
  {
    match n
    case Text(_) => [n]
    case Element(_, children) => [n] + Nodes(children)
  }

  predicate IsBody(n: Node) {
    n.Element? && n.name == "body"
  }

  predicate NoBodyIn(xs: seq<Node>) {
    forall j | 0 <= j < |xs| :: !IsBody(xs[j])
  }

  /** Position `k` of `xs` holds a body element, and no earlier position does. */
  predicate FirstBodyAt(xs: seq<Node>, k: int) {
    0 <= k < |xs| && IsBody(xs[k]) && NoBodyIn(xs[..k])
  }

  lemma FirstBodyShift(p: seq<Node>, xs: seq<Node>, k: int)
    requires FirstBodyAt(xs, k) && NoBodyIn(p)
    ensures FirstBodyAt(p + xs, |p| + k) && (p + xs)[|p| + k] == xs[k]
  {
    assert (p + xs)[..|p| + k] == p + xs[..k];
  }

  lemma FirstBodyExtend(xs: seq<Node>, post: seq<Node>, k: int)
    requires FirstBodyAt(xs, k)
    ensures FirstBodyAt(xs + post, k) && (xs + post)[k] == xs[k]
  {
    assert (xs + post)[..k] == xs[..k];
  }

  lemma NoBodyConcat(p: seq<Node>, xs: seq<Node>)
    requires NoBodyIn(p) && NoBodyIn(xs)
    ensures NoBodyIn(p + xs)
  {
  }

  /** `FindBody` against the document-order node list: `None` when no node is
      a body, and otherwise exactly the node at the first body position. */
  lemma {:induction false} FindBodyFirst(ns: seq<Node>)
    ensures FindBody(ns).None? ==> NoBodyIn(Nodes(ns))
    ensures FindBody(ns).Some? ==> exists k :: FirstBodyAt(Nodes(ns), k) && Nodes(ns)[k] == FindBody(ns).value
    decreases ns
  {
    if |ns| > 0 {
      var rest := Nodes(ns[1..]);
      assert Nodes(ns) == NodeAndBelow(ns[0]) + rest;
      FindBodyFirst(ns[1..]);
      match ns[0]
      case Text(_) =>
        assert NoBodyIn([ns[0]]);
        if FindBody(ns).None? {
          NoBodyConcat([ns[0]], rest);
        } else {
          var k :| FirstBodyAt(rest, k) && rest[k] == FindBody(ns).value;
          FirstBodyShift([ns[0]], rest, k);
        }
      case Element(name, children) =>
        var below := [ns[0]] + Nodes(children);
        FindBodyFirst(children);
        if name == "body" {
          assert FirstBodyAt(Nodes(ns), 0);
        } else {
          assert NoBodyIn([ns[0]]);
          if FindBody(children).Some? {
            var k :| FirstBodyAt(Nodes(children), k) && Nodes(children)[k] == FindBody(ns).value;
            FirstBodyShift([ns[0]], Nodes(children), k);
            FirstBodyExtend(below, rest, 1 + k);
          } else {
            NoBodyConcat([ns[0]], Nodes(children));
            if FindBody(ns).None? {
              NoBodyConcat(below, rest);
            } else {
              var k :| FirstBodyAt(rest, k) && rest[k] == FindBody(ns).value;
              FirstBodyShift(below, rest, k);
            }
          }
        }
    }
  }

  /** Every node within a noise-free forest is noise-free. */
  lemma {:induction false} WithinNoiseFree(n: Node, ns: seq<Node>)
    requires NoiseFree(ns) && Within(n, ns)
    ensures NodeNoiseFree(n)
    decreases ns
  {
    var i :| 0 <= i < |ns| && (n == ns[i] || (ns[i].Element? && Within(n, ns[i].children)));
    if n != ns[i] {
      assert NodeNoiseFree(ns[i]);
      WithinNoiseFree(n, ns[i].children);
    }
  }

  /** The whole reduction: prune the noise, then keep only the body. The result
      is a `body` element with no noise in it; `None` exactly when the pruned
      document has no body (Python then sends the text "None"). */
  function Reduce(document: seq<Node>): (r: Option<Node>)
    ensures r.Some? ==> r.value.Element? && r.value.name == "body" && NodeNoiseFree(r.value)
    ensures r.None? <==> Open("body") !in Labels(Prune(document))
    ensures r.Some? ==> Within(r.value, Prune(document))
    ensures r.None? ==> NoBodyIn(Nodes(Prune(document)))
    ensures r.Some? ==> exists k :: FirstBodyAt(Nodes(Prune(document)), k) && Nodes(Prune(document))[k] == r.value
  {
    BodyOfNoiseFree(Prune(document));
    BodyPlaced(Prune(document));
    FindBody(Prune(document))
  }

  /** Where the body found sits: inside the forest, and first in document order. */
  lemma BodyPlaced(ns: seq<Node>)
    ensures FindBody(ns).Some? ==> Within(FindBody(ns).value, ns)
    ensures FindBody(ns).None? ==> NoBodyIn(Nodes(ns))
    ensures FindBody(ns).Some? ==> exists k :: FirstBodyAt(Nodes(ns), k) && Nodes(ns)[k] == FindBody(ns).value
  {
    FindBodyFirst(ns);
    if FindBody(ns).Some? {
      FindBodyWithin(ns);
    }
  }

  /** The body found in a noise-free forest is noise-free. */
  lemma BodyOfNoiseFree(ns: seq<Node>)
    requires NoiseFree(ns)
    ensures FindBody(ns).Some? ==> NodeNoiseFree(FindBody(ns).value)
  {
    if FindBody(ns).Some? {
      FindBodyWithin(ns);
      WithinNoiseFree(FindBody(ns).value, ns);
    }
  }

  /** Reducing the reduced markup again changes nothing. */
  lemma ReduceIdempotent(document: seq<Node>)
    requires Reduce(document).Some?
    ensures Reduce([Reduce(document).value]) == Reduce(document)
  {
    var b := Reduce(document).value;
    assert NoiseFree([b]);
    PruneNoiseFree([b]);
  }

  /** Of two bodies, the earlier one is kept, even when the later one has the
      same tags in the same order. */
  lemma EarlierBodyKept()
    ensures var first := Element("body", [Element("div", []), Element("p", [])]);
            var second := Element("body", [Element("div", [Element("p", [])])]);
            Reduce([first, second]) == Some(first)
  {
    var first := Element("body", [Element("div", []), Element("p", [])]);
    var second := Element("body", [Element("div", [Element("p", [])])]);
    assert NoiseFree([first, second]) by {
      assert NodeNoiseFree(first) by { assert NoiseFree(first.children); }
      assert NodeNoiseFree(second) by {
        assert NodeNoiseFree(Element("div", [Element("p", [])])) by { assert NoiseFree([Element("p", [])]); }
      }
    }
    PruneNoiseFree([first, second]);
  }

  /** A body nested in a removed element is not found: removal happens first. */
  lemma BodyInsideNoiseIsGone(inner: seq<Node>)
    ensures Reduce([Element("svg", [Element("body", inner)])]).None?
  {
    assert Prune([Element("svg", [Element("body", inner)])]) == [];
  }
}

=== FILE: text.dfy ===
/**
 * The string operations the scraper takes from Python's `str`, over ASCII:
 * `strip`, `lower`, `in` (substring test), `startswith` and `replace`.
 */
module Text {

  /** `str.isspace` restricted to ASCII: tab, newline, vertical tab, form feed,
      carriage return, the four separators 0x1c-0x1f, and space. */
  predicate IsSpace(c: char) {
    (9 <= c as int <= 13) || (28 <= c as int <= 32)
  }

  predicate IsAsciiUpper(c: char) { 'A' <= c <= 'Z' }
  predicate IsAsciiLower(c: char) { 'a' <= c <= 'z' }
  predicate IsAsciiDigit(c: char) { '0' <= c <= '9' }
  predicate IsAsciiAlnum(c: char) { IsAsciiUpper(c) || IsAsciiLower(c) || IsAsciiDigit(c) }

  /** `str.isdigit` over ASCII: non-empty and made of decimal digits only. */
  predicate IsDigits(s: string) {
    |s| > 0 && forall i | 0 <= i < |s| :: IsAsciiDigit(s[i])
  }

  /** No leading and no trailing whitespace. */
  predicate Trimmed(s: string) {
    |s| == 0 || (!IsSpace(s[0]) && !IsSpace(s[|s| - 1]))
  }

  /** The number of whitespace characters at the front of `s`. */
  function LeadingSpaces(s: string): (n: nat)
    ensures n <= |s|
    ensures forall i | 0 <= i < n :: IsSpace(s[i])
    ensures n < |s| ==> !IsSpace(s[n])
  {
    if |s| > 0 && IsSpace(s[0]) then 1 + LeadingSpaces(s[1..]) else 0
  }

  /** The number of whitespace characters at the end of `s`. */
  function TrailingSpaces(s: string): (n: nat)
    ensures n <= |s|
    ensures forall i | |s| - n <= i < |s| :: IsSpace(s[i])
    ensures n < |s| ==> !IsSpace(s[|s| - n - 1])
  {
    if |s| > 0 && IsSpace(s[|s| - 1]) then 1 + TrailingSpaces(s[..|s| - 1]) else 0
  }

  /** `str.rstrip()` with no argument: `s` without its trailing whitespace. */
  function RStrip(s: string): (r: string)
    ensures |r| <= |s| && r == s[..|r|]
    ensures forall i | |r| <= i < |s| :: IsSpace(s[i])
    ensures |r| > 0 ==> !IsSpace(r[|r| - 1])
  {
    s[..|s| - TrailingSpaces(s)]
  }

  /** `str.strip()` with no argument: the text between the leading and the
      trailing whitespace. Every character cut away is whitespace and the kept
      text neither starts nor ends with whitespace. */
  function Strip(s: string): (r: string)
    ensures Trimmed(r)
    ensures |r| <= |s|
    ensures var a := LeadingSpaces(s); a + |r| <= |s| && r == s[a..a + |r|]
    ensures forall i | 0 <= i < LeadingSpaces(s) :: IsSpace(s[i])
    ensures forall i | LeadingSpaces(s) + |r| <= i < |s| :: IsSpace(s[i])
  {
    var a := LeadingSpaces(s);
    var l := s[a..];
    var t := TrailingSpaces(l);
    var r := l[..|l| - t];
    assert r == s[a..a + |r|];
    assert forall i | LeadingSpaces(s) + |r| <= i < |s| :: s[i] == l[i - a];
    r
  }

  predicate AllSpace(s: string) {
    forall i | 0 <= i < |s| :: IsSpace(s[i])
  }

  lemma {:induction false} LeadingSpacesOfPadded(pre: string, rest: string)
    requires AllSpace(pre)
    requires |rest| > 0 && !IsSpace(rest[0])
    ensures LeadingSpaces(pre + rest) == |pre|
    decreases |pre|
  {
    if |pre| > 0 {
      assert (pre + rest)[1..] == pre[1..] + rest;
      LeadingSpacesOfPadded(pre[1..], rest);
    } else {
      assert pre + rest == rest;
    }
  }

  lemma {:induction false} TrailingSpacesOfPadded(rest: string, post: string)
    requires AllSpace(post)
    requires |rest| > 0 && !IsSpace(rest[|rest| - 1])
    ensures TrailingSpaces(rest + post) == |post|
    decreases |post|
  {
    if |post| > 0 {
      assert (rest + post)[..|rest + post| - 1] == rest + post[..|post| - 1];
      TrailingSpacesOfPadded(rest, post[..|post| - 1]);
    } else {
      assert rest + post == rest;
    }
  }

  /** Whitespace around non-empty trimmed text is exactly what `strip` removes. */
  lemma StripPadded(pre: string, body: string, post: string)
    requires AllSpace(pre) && AllSpace(post)
    requires Trimmed(body) && |body| > 0
    ensures Strip(pre + body + post) == body
  {
    var s := pre + body + post;
    assert s == pre + (body + post);
    LeadingSpacesOfPadded(pre, body + post);
    assert s[|pre|..] == body + post;
    TrailingSpacesOfPadded(body, post);
  }

  /** Text made of whitespace only strips to the empty string. */
  lemma StripAllSpace(s: string)
    requires AllSpace(s)
    ensures Strip(s) == ""
  {
  }

  /** Stripping text that has no surrounding whitespace changes nothing. */
  lemma StripTrimmed(s: string)
    requires Trimmed(s)
    ensures Strip(s) == s
  {
  }

  /** Stripping is idempotent. */
  lemma StripIdempotent(s: string)
    ensures Strip(Strip(s)) == Strip(s)
  {
    StripTrimmed(Strip(s));
  }

  /** `str.lower()` over ASCII: upper-case letters map to lower-case, every other
      character is unchanged. */
  function LowerChar(c: char): (d: char)
    ensures IsAsciiUpper(c) ==> d as int == c as int + 32
    ensures !IsAsciiUpper(c) ==> d == c
    ensures !IsAsciiUpper(d)
  {
    if IsAsciiUpper(c) then (c as int + 32) as char else c
  }

  function Lower(s: string): (r: string)
    ensures |r| == |s|
    ensures forall i | 0 <= i < |s| :: r[i] == LowerChar(s[i])
  {
    seq(|s|, i requires 0 <= i < |s| => LowerChar(s[i]))
  }

  lemma LowerIdempotent(s: string)
    ensures Lower(Lower(s)) == Lower(s)
  {
  }

  /** `s[i:i + len(p)] == p`. */
  predicate OccursAt(s: string, p: string, i: int) {
    0 <= i && i + |p| <= |s| && s[i..i + |p|] == p
  }

  /** Python's `p in s`. */
  predicate Contains(s: string, p: string) {
    exists i | 0 <= i <= |s| - |p| :: OccursAt(s, p, i)
  }

  /** `s.startswith(p)`. */
  predicate StartsWith(s: string, p: string) {
    OccursAt(s, p, 0)
  }

  /** A match inside a slice of `s` is a match inside `s`. */
  lemma OccursInSlice(s: string, p: string, a: int, b: int, i: int)
    requires 0 <= a <= b <= |s|
    requires OccursAt(s[a..b], p, i)
    ensures OccursAt(s, p, a + i)
  {
    forall k | 0 <= k < |p| ensures s[a + i + k] == p[k] {
      assert s[a..b][i..i + |p|][k] == p[k];
    }
    assert s[a + i..a + i + |p|] == p;
  }

  lemma NotContainedInSlice(s: string, p: string, a: int, b: int)
    requires 0 <= a <= b <= |s|
    requires !Contains(s, p)
    ensures !Contains(s[a..b], p)
  {
    if Contains(s[a..b], p) {
      var i :| 0 <= i <= |s[a..b]| - |p| && OccursAt(s[a..b], p, i);
      OccursInSlice(s, p, a, b, i);
    }
  }

  /** `s.replace(p, r)`: occurrences of `p` are replaced left to right, without
      overlap, in one pass. */
  function ReplaceAll(s: string, p: string, r: string): string
    requires |p| > 0
    decreases |s|
  {
    if |s| < |p| then s
    else if s[..|p|] == p then r + ReplaceAll(s[|p|..], p, r)
    else [s[0]] + ReplaceAll(s[1..], p, r)
  }

  /** Replacing a pattern that does not occur changes nothing. */
  lemma {:induction false} ReplaceAbsent(s: string, p: string, r: string)
    requires |p| > 0
    requires !Contains(s, p)
    ensures ReplaceAll(s, p, r) == s
    decreases |s|
  {
    if |s| >= |p| {
      assert !OccursAt(s, p, 0);
      assert s[..|p|] != p;
      NotContainedInSlice(s, p, 1, |s|);
      assert s[1..|s|] == s[1..];
      ReplaceAbsent(s[1..], p, r);
    }
  }

  /** A prefix holding none of the pattern's first character passes through a
      replacement untouched. */
  lemma {:induction false} ReplaceAfterPrefix(a: string, b: string, p: string, r: string)
    requires |p| > 0
    requires p[0] !in a
    ensures ReplaceAll(a + b, p, r) == a + ReplaceAll(b, p, r)
    decreases |a|
  {
    if |a| > 0 {
      var s := a + b;
      if |s| >= |p| {
        assert s[0] == a[0] != p[0];
        assert s[..|p|] != p;
        assert ReplaceAll(s, p, r) == [s[0]] + ReplaceAll(s[1..], p, r);
        assert s[1..] == a[1..] + b;
        assert p[0] !in a[1..];
        ReplaceAfterPrefix(a[1..], b, p, r);
        assert a == [a[0]] + a[1..];
      } else {
        // too short for a match: unchanged on both sides
        ReplaceShort(b, p, r);
      }
    } else {
      assert a + b == b;
    }
  }

  lemma ReplaceShort(s: string, p: string, r: string)
    requires |p| > 0 && |s| < |p|
    ensures ReplaceAll(s, p, r) == s
  {
  }

  /** Every `s.replace(p, r)` over a string that begins with `p` starts with `r`. */
  lemma ReplaceAtFront(s: string, p: string, r: string)
    requires |p| > 0
    ensures ReplaceAll(p + s, p, r) == r + ReplaceAll(s, p, r)
  {
    assert (p + s)[..|p|] == p;
    assert (p + s)[|p|..] == s;
  }
}

=== FILE: utils.dfy ===
/**
 * `utils.py`: the safe storage key derived from a company name, and the
 * configuration store as an in-memory map keyed by that safe name (the JSON
 * file behind it is not modelled).
 */
module Utils {
  import opened Wrappers
  import opened Text
  import opened Json

  /** The characters `get_safe_company_name` keeps before stripping:
      `c.isalnum() or c in (' ', '-', '_')`. */
  predicate KeptInName(c: char) {
    IsAsciiAlnum(c) || c == ' ' || c == '-' || c == '_'
  }

  /** The alphabet of a safe name. */
  predicate SafeChar(c: char) {
    IsAsciiLower(c) || IsAsciiDigit(c) || c == '-' || c == '_'
  }

  function KeepNameChars(s: string): (r: string)
    ensures |r| <= |s|
    ensures forall c | c in r :: KeptInName(c)
  {
    if |s| == 0 then []
    else (if KeptInName(s[0]) then [s[0]] else []) + KeepNameChars(s[1..])
  }

  function SpacesToUnderscores(s: string): (r: string)
    ensures |r| == |s|
    ensures forall i | 0 <= i < |s| :: r[i] == (if s[i] == ' ' then '_' else s[i])
  {
    seq(|s|, i requires 0 <= i < |s| => if s[i] == ' ' then '_' else s[i])
  }

  /** `get_safe_company_name`: keep letters, digits, spaces, '-' and '_', drop
      trailing spaces, turn the remaining spaces into '_' and lower-case. The
      key is never longer than the name and uses only the safe alphabet. */
  function SafeCompanyName(name: string): (key: string)
    ensures |key| <= |name|
    ensures forall c | c in key :: SafeChar(c)
    ensures ' ' !in key
  {
    var kept := KeepNameChars(name);
    var trimmed := RStrip(kept);
    var key := Lower(SpacesToUnderscores(trimmed));
    forall i | 0 <= i < |key| ensures SafeChar(key[i]) && key[i] != ' ' {
      assert trimmed[i] in kept;
    }
    key
  }

  lemma {:induction false} KeepSafeChars(s: string)
    requires forall c | c in s :: SafeChar(c)
    ensures KeepNameChars(s) == s
    decreases |s|
  {
    if |s| > 0 {
      assert s[0] in s;
      assert forall c | c in s[1..] :: c in s;
      KeepSafeChars(s[1..]);
      assert KeepNameChars(s) == [s[0]] + KeepNameChars(s[1..]);
      assert s == [s[0]] + s[1..];
    }
  }

  /** A safe name is its own safe name. */
  lemma SafeCompanyNameIdempotent(name: string)
    ensures SafeCompanyName(SafeCompanyName(name)) == SafeCompanyName(name)
  {
    var key := SafeCompanyName(name);
    KeepSafeChars(key);
    assert TrailingSpaces(key) == 0;
    assert RStrip(key) == key;
    assert SpacesToUnderscores(key) == key;
    assert Lower(key) == key;
  }

  lemma {:induction false} KeepAppend(a: string, b: string)
    ensures KeepNameChars(a + b) == KeepNameChars(a) + KeepNameChars(b)
    decreases |a|
  {
    if |a| > 0 {
      assert (a + b)[1..] == a[1..] + b;
      KeepAppend(a[1..], b);
    } else {
      assert a + b == b;
    }
  }

  /** Trailing spaces are removed before the replacement, so they leave no '_'. */
  lemma TrailingSpaceIgnored(name: string)
    ensures SafeCompanyName(name + " ") == SafeCompanyName(name)
  {
    KeepAppend(name, " ");
    var kept := KeepNameChars(name);
    assert KeepNameChars(" ") == " ";
    TrailingSpacesAppend(kept);
  }

  lemma TrailingSpacesAppend(s: string)
    ensures RStrip(s + " ") == RStrip(s)
  {
    var t := s + " ";
    assert t[..|t| - 1] == s;
  }

  /** A leading space becomes '_' once some other kept character follows. */
  lemma LeadingSpaceBecomesUnderscore(name: string)
    requires SafeCompanyName(name) != ""
    ensures SafeCompanyName(" " + name) == "_" + SafeCompanyName(name)
  {
    var kept := KeepNameChars(name);
    KeepAppend(" ", name);
    assert KeepNameChars(" ") == " ";
    assert KeepNameChars(" " + name) == " " + kept;
    var t := RStrip(kept);
    assert |t| > 0;
    RStripPrefix(" ", kept);
    assert RStrip(" " + kept) == " " + t;
    UnderscoreLowerPrefix(t);
  }

  lemma UnderscoreLowerPrefix(t: string)
    ensures Lower(SpacesToUnderscores(" " + t)) == "_" + Lower(SpacesToUnderscores(t))
  {
    var a := Lower(SpacesToUnderscores(" " + t));
    var b := "_" + Lower(SpacesToUnderscores(t));
    assert |a| == |b|;
    forall i | 0 <= i < |a| ensures a[i] == b[i] {
      if i > 0 {
        assert (" " + t)[i] == t[i - 1];
      }
    }
  }

  lemma RStripPrefix(a: string, s: string)
    requires |RStrip(s)| > 0
    ensures RStrip(a + s) == a + RStrip(s)
  {
    var t := a + s;
    var n := TrailingSpaces(s);
    TrailingSpacesSuffix(a, s);
    assert t[..|t| - n] == a + s[..|s| - n];
  }

  lemma {:induction false} TrailingSpacesSuffix(a: string, s: string)
    requires |RStrip(s)| > 0
    ensures TrailingSpaces(a + s) == TrailingSpaces(s)
    decreases |s|
  {
    var t := a + s;
    if |s| > 0 && IsSpace(s[|s| - 1]) {
      assert t[..|t| - 1] == a + s[..|s| - 1];
      assert RStrip(s[..|s| - 1]) == RStrip(s);
      TrailingSpacesSuffix(a, s[..|s| - 1]);
    }
  }

  // ---------------------------------------------------------------------------
  // The configuration store.

  /** One entry of the configurations file, a JSON object. */
  type Entry = map<string, Json>

  /** `configurations.json` as a map from safe name to entry, plus the single-site
      `config.json` that scouting without a company name writes. */
  datatype Store = Store(configurations: map<string, Entry>, siteConfig: Option<Json>)

  /** `save_configuration`: the entry under the company's safe name is replaced
      by one holding the name, the selectors and the time stamp `now`; every
      other entry is left alone. */
  function SaveConfiguration(store: Store, companyName: string, selectors: Json, now: string): (r: Store)
    ensures r.configurations.Keys == store.configurations.Keys + {SafeCompanyName(companyName)}
    ensures SafeCompanyName(companyName) in r.configurations
    ensures forall k | k in store.configurations && k != SafeCompanyName(companyName) ::
              r.configurations[k] == store.configurations[k]
    ensures var e := r.configurations[SafeCompanyName(companyName)];
              && "company_name" in e && e["company_name"] == JString(companyName)
              && "selectors" in e && e["selectors"] == selectors
              && "last_updated" in e && e["last_updated"] == JString(now)
    // the entry is replaced whole: nothing of an older entry survives
    ensures r.configurations[SafeCompanyName(companyName)].Keys == {"company_name", "selectors", "last_updated"}
    ensures r.siteConfig == store.siteConfig
  {
    var entry := map["company_name" := JString(companyName), "selectors" := selectors,
                     "last_updated" := JString(now)];
    store.(configurations := store.configurations[SafeCompanyName(companyName) := entry])
  }

  /** `get_company_configuration`: `None` when no entry has the safe name, the
      entry's selectors when it has them, and `{}` when it has none. */
  function GetCompanyConfiguration(store: Store, companyName: string): (r: Option<Json>)
    ensures r.None? <==> SafeCompanyName(companyName) !in store.configurations
    ensures r.Some? && "selectors" in store.configurations[SafeCompanyName(companyName)] ==>
              r.value == store.configurations[SafeCompanyName(companyName)]["selectors"]
    ensures r.Some? && "selectors" !in store.configurations[SafeCompanyName(companyName)] ==>
              r.value == JObject(map[])
  {
    var key := SafeCompanyName(companyName);
    if key in store.configurations then
      var entry := store.configurations[key];
      Some(if "selectors" in entry then entry["selectors"] else JObject(map[]))
    else None
  }

  /** Saving then getting under the same name gives back the saved selectors. */
  lemma SaveThenGet(store: Store, companyName: string, selectors: Json, now: string)
    ensures GetCompanyConfiguration(SaveConfiguration(store, companyName, selectors, now), companyName)
            == Some(selectors)
  {
  }

  /** Saving under one name does not change what another key reads back. */
  lemma SaveKeepsOthers(store: Store, saved: string, selectors: Json, now: string, other: string)
    requires SafeCompanyName(other) != SafeCompanyName(saved)
    ensures GetCompanyConfiguration(SaveConfiguration(store, saved, selectors, now), other)
            == GetCompanyConfiguration(store, other)
  {
  }

  /** Two names with the same safe key overwrite each other: the later save wins. */
  lemma SameKeyOverwrites(store: Store, first: string, second: string, s1: Json, s2: Json, t1: string, t2: string)
    requires SafeCompanyName(first) == SafeCompanyName(second)
    ensures GetCompanyConfiguration(
              SaveConfiguration(SaveConfiguration(store, first, s1, t1), second, s2, t2), first)
            == Some(s2)
  {
  }
}

=== FILE: walk_properties.dfy ===
/**
 * Properties of the scrape walk that relate several runs: which parts of the
 * script the walk can see, how a failing card is isolated, and how scouting
 * feeds scraping.
 */
module WalkProperties {
  import opened Wrappers
  import opened Json
  import opened Utils
  import opened GeminiAi
  import opened Markup
  import opened WebScraper

  /** A card whose title or location raises disappears without a trace: the
      rest of the page runs exactly as if it were not there, provided it is not
      card 0 (whose index decides schema discovery). */
  lemma {:induction false} DroppedCardIsSkipped(selectors: map<string, Json>, url: string,
                                                xs: seq<Card>, c: Card, ys: seq<Card>, first: bool,
                                                company: Option<string>, ai: Ai, s: Session)
    requires BaseRecord(selectors, url, c, company).None?
    requires |xs| > 0 || !first
    ensures ProcessCards(selectors, url, xs + [c] + ys, first, company, ai, s)
            == ProcessCards(selectors, url, xs + ys, first, company, ai, s)
    decreases |xs|
  {
    if |xs| == 0 {
      assert xs + [c] + ys == [c] + ys;
      assert ([c] + ys)[1..] == ys;
      assert xs + ys == ys;
    } else {
      var s1 := ProcessCard(selectors, url, first, xs[0], company, ai, s);
      assert (xs + [c] + ys)[0] == xs[0] && (xs + [c] + ys)[1..] == xs[1..] + [c] + ys;
      assert (xs + ys)[0] == xs[0] && (xs + ys)[1..] == xs[1..] + ys;
      DroppedCardIsSkipped(selectors, url, xs[1..], c, ys, false, company, ai, s1);
    }
  }

  /** The base records of the cards that can be read, in card order. */
  function Bases(selectors: map<string, Json>, url: string, cards: seq<Card>, company: Option<string>)
    : (r: seq<Record>)
    ensures |r| <= |cards|
    decreases |cards|
  {
    if |cards| == 0 then []
    else
      var rest := Bases(selectors, url, cards[1..], company);
      match BaseRecord(selectors, url, cards[0], company)
      case None => rest
      case Some(b) => [b] + rest
  }

  /** With full details off, a page adds exactly the base records of its
      readable cards, in card order, and nothing else changes. */
  lemma {:induction false} DetailsOffKeepsReadableCards(selectors: map<string, Json>, url: string,
                                                        cards: seq<Card>, first: bool,
                                                        company: Option<string>, ai: Ai, s: Session)
    requires !s.fullDetails
    ensures var r := ProcessCards(selectors, url, cards, first, company, ai, s);
            r == s.(records := s.records + Bases(selectors, url, cards, company))
    decreases |cards|
  {
    if |cards| == 0 {
      assert s.records + [] == s.records;
    } else {
      var s1 := ProcessCard(selectors, url, first, cards[0], company, ai, s);
      DetailsOffCard(selectors, url, first, cards[0], company, ai, s);
      DetailsOffKeepsReadableCards(selectors, url, cards[1..], false, company, ai, s1);
      assert ProcessCards(selectors, url, cards, first, company, ai, s)
             == ProcessCards(selectors, url, cards[1..], false, company, ai, s1);
      DetailsOffStep(BaseRecord(selectors, url, cards[0], company), Bases(selectors, url, cards[1..], company),
                     s, s1, ProcessCards(selectors, url, cards[1..], false, company, ai, s1));
    }
  }

  /** The step of the induction: the first card's record, then the rest's. */
  lemma DetailsOffStep(head: Option<Record>, rest: seq<Record>, s: Session, s1: Session, t: Session)
    requires match head
             case None => s1 == s
             case Some(b) => s1 == s.(records := s.records + [b])
    requires t == s1.(records := s1.records + rest)
    ensures t == s.(records := s.records + match head case None => rest case Some(b) => [b] + rest)
  {
    match head
    case None =>
    case Some(b) =>
      assert s.records + [b] + rest == s.records + ([b] + rest);
  }

  /** One card with full details off: its base record, if it can be read. */
  lemma DetailsOffCard(selectors: map<string, Json>, url: string, first: bool, card: Card,
                       company: Option<string>, ai: Ai, s: Session)
    requires !s.fullDetails
    ensures var r := ProcessCard(selectors, url, first, card, company, ai, s);
            match BaseRecord(selectors, url, card, company)
            case None => r == s
            case Some(b) => r == s.(records := s.records + [b])
  {
  }

  /** Pages after one that ends the walk are never consulted. */
  lemma {:induction false} NothingAfterLastPage(selectors: map<string, Json>, pages: seq<ListPage>, k: nat,
                                                company: Option<string>, ai: Ai, s: Session)
    requires k < |pages| && EndsWalk(selectors, pages[k])
    ensures Walk(selectors, pages, company, ai, s) == Walk(selectors, pages[..k + 1], company, ai, s)
    decreases k
  {
    var prefix := pages[..k + 1];
    assert prefix[0] == pages[0];
    if k > 0 && Continues(selectors, pages[0]) {
      var s1 := ProcessCards(selectors, pages[0].url, pages[0].cards, true, company, ai, s);
      assert prefix[1..] == pages[1..][..k];
      NothingAfterLastPage(selectors, pages[1..], k - 1, company, ai, s1);
    }
  }

  /** Without a truthy `pagination_next` selector only the first page is read. */
  lemma SinglePageWithoutPagination(selectors: map<string, Json>, pages: seq<ListPage>,
                                    company: Option<string>, ai: Ai, s: Session)
    requires |pages| > 0 && !Truthy(Get(selectors, "pagination_next"))
    ensures Walk(selectors, pages, company, ai, s) == Walk(selectors, pages[..1], company, ai, s)
  {
    NothingAfterLastPage(selectors, pages, 0, company, ai, s);
  }

  /** A page whose cards do not appear (an exception outside the per-card
      handler) or that has no cards ends the walk with exactly the records of
      the pages before it. */
  lemma {:induction false} StopKeepsEarlierPages(selectors: map<string, Json>, pages: seq<ListPage>, k: nat,
                                                 company: Option<string>, ai: Ai, s: Session)
    requires k < |pages| && (!pages[k].ready || |pages[k].cards| == 0)
    ensures Walk(selectors, pages, company, ai, s) == Walk(selectors, pages[..k], company, ai, s)
    decreases k
  {
    if k > 0 && Continues(selectors, pages[0]) {
      var s1 := ProcessCards(selectors, pages[0].url, pages[0].cards, true, company, ai, s);
      assert pages[..k][0] == pages[0];
      assert pages[..k][1..] == pages[1..][..k - 1];
      StopKeepsEarlierPages(selectors, pages[1..], k - 1, company, ai, s1);
    } else if k > 0 {
      assert pages[..k][0] == pages[0];
    }
  }

  /** Records come out page by page: what the first `k` pages of the script give
      is a prefix of what the whole script gives. */
  lemma {:induction false} EarlierPagesComeFirst(selectors: map<string, Json>, pages: seq<ListPage>, k: nat,
                                                 company: Option<string>, ai: Ai, s: Session)
    requires k <= |pages|
    ensures Walk(selectors, pages[..k], company, ai, s).records <= Walk(selectors, pages, company, ai, s).records
    decreases k
  {
    if k > 0 {
      var front := pages[..k];
      assert front[0] == pages[0];
      if Continues(selectors, pages[0]) {
        var s1 := ProcessCards(selectors, pages[0].url, pages[0].cards, true, company, ai, s);
        WalkStep(selectors, front, company, ai, s);
        WalkStep(selectors, pages, company, ai, s);
        assert front[1..] == pages[1..][..k - 1];
        EarlierPagesComeFirst(selectors, pages[1..], k - 1, company, ai, s1);
      } else {
        WalkLastStep(selectors, front, company, ai, s);
        WalkLastStep(selectors, pages, company, ai, s);
      }
    }
  }

  /** The walk moves on from a page exactly when this holds. */
  predicate Continues(selectors: map<string, Json>, page: ListPage) {
    "job_item" in selectors && page.ready && |page.cards| > 0 && !EndsWalk(selectors, page)
  }

  lemma WalkStep(selectors: map<string, Json>, pages: seq<ListPage>, company: Option<string>, ai: Ai, s: Session)
    requires |pages| > 0 && Continues(selectors, pages[0])
    ensures Walk(selectors, pages, company, ai, s)
            == Walk(selectors, pages[1..], company, ai,
                    ProcessCards(selectors, pages[0].url, pages[0].cards, true, company, ai, s))
  {
  }

  lemma WalkLastStep(selectors: map<string, Json>, pages: seq<ListPage>, company: Option<string>, ai: Ai, s: Session)
    requires |pages| > 0 && !Continues(selectors, pages[0])
    ensures Walk(selectors, pages, company, ai, s)
            == if "job_item" in selectors && pages[0].ready && |pages[0].cards| > 0
               then ProcessCards(selectors, pages[0].url, pages[0].cards, true, company, ai, s)
               else s
  {
  }

  /** Schema discovery that fails on the way to the first job's page turns
      full details off for the rest of the session; this card is kept with its
      base record and no detail page is fetched. */
  lemma FailedDiscoveryTurnsDetailsOff(selectors: map<string, Json>, url: string, card: Card,
                                       company: Option<string>, ai: Ai, s: Session)
    requires Consistent(s) && s.fullDetails && !s.analyzed
    requires BaseRecord(selectors, url, card, company).Some?
    requires JobId.Present(BaseRecord(selectors, url, card, company).value["job_url"])
    requires card.schemaVisit.document.Raises?
    ensures var r := ProcessCard(selectors, url, true, card, company, ai, s);
            && !r.fullDetails && r.fetched == s.fetched && |r.schemaVisits| == 1
            && r.records == s.records + [BaseRecord(selectors, url, card, company).value]
  {
  }

  /** When going back to the listing fails after the AI has answered, full
      details are off for later cards, yet this card's details are still
      fetched with the selectors just obtained. */
  lemma LateDiscoveryFailureStillFetches(selectors: map<string, Json>, url: string, card: Card,
                                         company: Option<string>, ai: Ai, s: Session)
    requires Consistent(s) && s.fullDetails && !s.analyzed
    requires BaseRecord(selectors, url, card, company).Some?
    requires JobId.Present(BaseRecord(selectors, url, card, company).value["job_url"])
    requires card.schemaVisit.document.Gives? && !card.schemaVisit.backToList
    requires var answer := DetailSelectorsFromAi(
               Serialise(Reduce(card.schemaVisit.document.value), ai.render), ai.generate, ai.parse);
             answer.Some? && Truthy(answer.value)
    ensures var r := ProcessCard(selectors, url, true, card, company, ai, s);
            && !r.fullDetails && r.analyzed
            && r.fetched == s.fetched + [BaseRecord(selectors, url, card, company).value["job_url"].value]
  {
  }

  /** Scouting feeds scraping: selectors a scout run saves are the ones a
      later scrape without explicit selectors uses, with or without a company
      name. */
  lemma ScoutThenScrape(company: Option<string>, landing: Probe<seq<Node>>, ai: Ai, store: Store, now: string)
    requires ScoutMode(company, landing, ai, store, now).0.Some?
    ensures var (found, saved) := ScoutMode(company, landing, ai, store, now);
            ResolveSelectors(JNull, company, saved) == found
  {
    var (found, saved) := ScoutMode(company, landing, ai, store, now);
    if company.Some? && |company.value| > 0 {
      SaveThenGet(store, company.value, found.value, now);
    }
  }
}

=== FILE: web_scraper.dfy ===
/**
 * `scout_mode` and `scrape_mode`: the control flow of the scraper over a
 * scripted sequence of page observations. Every browser call is replaced by
 * what it yields in the script: a value, or an exception (`Raises`). The AI
 * model, the JSON parser and the serialisation of the reduced markup are
 * oracles carried in `Ai`.
 */
module WebScraper {
  import opened Wrappers
  import opened Text
  import opened Json
  import opened Markup
  import opened GeminiAi
  import opened JobId
  import opened Links
  import opened JobDetails
  import opened Utils

  /** One scraped job: a dict whose values are strings or `None`. */
  type Record = map<string, Option<string>>

  const BaseKeys: set<string> :=
    {"title", "location", "job_id", "job_url", "preview_description", "company"}

  /** The external services: text generation, `json.loads`, and `str(tag)`. */
  datatype Ai = Ai(generate: (Prompt, string) -> Generation,
                   parse: string -> Option<Json>,
                   render: Node -> string)

  /** `str(soup.body)`: the text "None" when the document has no body. */
  function Serialise(body: Option<Node>, render: Node -> string): string {
    match body
    case None => "None"
    case Some(b) => render(b)
  }

  /** `selectors.get(key)`, with JSON null for a missing key. */
  function Get(selectors: map<string, Json>, key: string): Json {
    if key in selectors then selectors[key] else JNull
  }

  // ---------------------------------------------------------------------------
  // The script.

  /** What opening the first job's page for schema discovery yields: the parsed
      document (or an exception from navigation), and whether going back to
      the listing and waiting for its cards succeeded. */
  datatype SchemaVisit = SchemaVisit(document: Probe<seq<Node>>, backToList: bool)

  /** One job card as the browser reports it. `link` is the first element the
      link selector finds (`Raises` when locating it raises; a raising `href`
      read is recorded in the element itself). The last
      two fields are the card's detail page and whether going back from it
      succeeded. */
  datatype Card = Card(
    title: Probe<string>,
    location: Probe<string>,
    link: Probe<Elem>,
    description: Probe<string>,
    schemaVisit: SchemaVisit,
    detailPage: DetailPage,
    backFromDetail: bool)

  /** The next-page control: not visible (or absent), disabled, clickable with
      the next page loading, or raising while being inspected or clicked. */
  datatype NextControl = NotVisible | Disabled | Enabled | ControlRaises

  /** One listing page: whether its cards appeared in time (and, for the first
      page, whether navigation succeeded), its URL, its cards and its
      next-page control. */
  datatype ListPage = ListPage(ready: bool, url: string, cards: seq<Card>, next: NextControl)

  // ---------------------------------------------------------------------------
  // The walk's state.

  /** `all_jobs`, `job_detail_analyzed`, `extract_full_details` and
      `detail_selectors` (JSON null for `None`), plus the job links opened for
      schema discovery and the detail pages fetched, in order. */
  datatype Session = Session(
    records: seq<Record>,
    analyzed: bool,
    fullDetails: bool,
    detailSelectors: Json,
    schemaVisits: seq<string>,
    fetched: seq<string>)

  function Start(fullDetails: bool): Session {
    Session([], false, fullDetails, JNull, [], [])
  }

  /** What holds at every step of a walk that began with `Start`: schema
      discovery is attempted at most once; after an attempt either it got as
      far as asking the AI or detail fetching is off; detail selectors only come
      from that one request; no detail page is fetched without them; and every
      record has the six base keys. */
  predicate Consistent(s: Session) {
    && |s.schemaVisits| <= 1
    && (s.analyzed ==> |s.schemaVisits| == 1)
    && (|s.schemaVisits| == 1 ==> s.analyzed || !s.fullDetails)
    && (Truthy(s.detailSelectors) ==> s.analyzed)
    && (|s.fetched| > 0 ==> Truthy(s.detailSelectors))
    && forall j | 0 <= j < |s.records| :: BaseKeys <= s.records[j].Keys
  }

  /** Whether the detail selectors carry their own "company" field, whose
      detail value then replaces the company name in a merged record. */
  predicate DetailCompany(detailSelectors: Json) {
    detailSelectors.JObject? && "company" in detailSelectors.fields
  }

  /** Every record names the company, unless the detail selectors override it. */
  predicate CompanyCarried(s: Session, company: Option<string>) {
    forall j | 0 <= j < |s.records| ::
      "company" in s.records[j] && (s.records[j]["company"] == company || DetailCompany(s.detailSelectors))
  }

  lemma StartConsistent(fullDetails: bool)
    ensures Consistent(Start(fullDetails))
  {
  }

  // ---------------------------------------------------------------------------
  // One card.

  /** `job_link` and `job_id` for a card. A relative `href` is resolved against
      the page URL; when that raises, the handler leaves `job_link` holding the
      raw `href` and `job_id` unset. */
  function LinkAndId(selectors: map<string, Json>, pageUrl: string, link: Probe<Elem>)
    : (r: (Option<string>, Option<string>))
    ensures !Truthy(Get(selectors, "job_link")) || link.Raises? || (link.Gives? && ReadRaises(link.value, "href")) ==>
              r == (None, None)
    ensures r.1.Some? ==> Truthy(Get(selectors, "job_id")) && link.Gives? && r.1 == ExtractJobId(link.value)
    ensures Truthy(Get(selectors, "job_link")) && link.Gives? && !ReadRaises(link.value, "href") ==>
              var href := GetAttribute(link.value, "href");
              && (!Present(href) ==> r.0 == href)
              && (Present(href) && StartsWith(href.value, "http") ==> r.0 == href)
              && (Present(href) && !StartsWith(href.value, "http") && |Split(pageUrl, '/')| < 3 ==>
                    r == (href, None))
              && (Present(href) && !StartsWith(href.value, "http") && |Split(pageUrl, '/')| >= 3 ==>
                    r.0.Some? && |href.value| < |r.0.value| && r.0.value[|r.0.value| - |href.value|..] == href.value)
              && (!Present(href) || StartsWith(href.value, "http") || |Split(pageUrl, '/')| >= 3 ==>
                    r.1 == (if Truthy(Get(selectors, "job_id")) then ExtractJobId(link.value) else None))
  {
    if !Truthy(Get(selectors, "job_link")) then (None, None)
    else match link
      case Raises => (None, None)
      case Gives(e) =>
        if ReadRaises(e, "href") then (None, None)
        else
          var href := GetAttribute(e, "href");
          var id := if Truthy(Get(selectors, "job_id")) then ExtractJobId(e) else None;
          if Present(href) then
            match Absolutise(pageUrl, href.value)
            case Raises => (href, None)
            case Gives(u) =>
              assert !StartsWith(href.value, "http") ==> |u| > |href.value| by {
                if !StartsWith(href.value, "http") {
                  assert u == Split(pageUrl, '/')[0] + "//" + Split(pageUrl, '/')[2] + href.value;
                }
              }
              (Some(u), id)
          else (href, id)
  }

  /** The optional text behind a selector: `None` when the selector is falsy. */
  function Optional(selectors: map<string, Json>, key: string, text: Probe<string>): Option<string>
    requires Truthy(Get(selectors, key)) ==> text.Gives?
  {
    if Truthy(Get(selectors, key)) then Some(Strip(text.value)) else None
  }

  /** `job_data` before any detail is merged, or `None` when reading the title
      or the location raises, which drops the card. */
  function BaseRecord(selectors: map<string, Json>, pageUrl: string, card: Card, company: Option<string>)
    : (r: Option<Record>)
    ensures r.None? <==> (Truthy(Get(selectors, "title")) && card.title.Raises?)
                         || (Truthy(Get(selectors, "location")) && card.location.Raises?)
    ensures r.Some? ==> r.value.Keys == BaseKeys && r.value["company"] == company
    ensures r.Some? ==> (r.value["job_url"] == LinkAndId(selectors, pageUrl, card.link).0
                         && r.value["job_id"] == LinkAndId(selectors, pageUrl, card.link).1)
    ensures r.Some? ==> ((r.value["title"].Some? <==> Truthy(Get(selectors, "title")))
                         && (r.value["title"].Some? ==> Trimmed(r.value["title"].value)))
    ensures r.Some? ==> (r.value["preview_description"].Some? <==>
                          Truthy(Get(selectors, "description")) && card.description.Gives?)
    // the texts are the card's own, stripped, each under its own key
    ensures r.Some? && Truthy(Get(selectors, "title")) ==> r.value["title"] == Some(Strip(card.title.value))
    ensures r.Some? ==> (r.value["location"].Some? <==> Truthy(Get(selectors, "location")))
    ensures r.Some? && Truthy(Get(selectors, "location")) ==>
              r.value["location"] == Some(Strip(card.location.value))
    ensures r.Some? && r.value["preview_description"].Some? ==>
              r.value["preview_description"].value == Strip(card.description.value)
  {
    if Truthy(Get(selectors, "title")) && card.title.Raises? then None
    else if Truthy(Get(selectors, "location")) && card.location.Raises? then None
    else
      var title := Optional(selectors, "title", card.title);
      var location := Optional(selectors, "location", card.location);
      var (link, id) := LinkAndId(selectors, pageUrl, card.link);
      var description :=
        if Truthy(Get(selectors, "description")) && card.description.Gives?
        then Some(Strip(card.description.value)) else None;
      Some(map["title" := title, "location" := location, "job_id" := id, "job_url" := link,
               "preview_description" := description, "company" := company])
  }

  /** Schema discovery on the first card's link: open it, reduce its markup,
      ask the AI. An exception before the request turns full details off and
      leaves the flag unset; one on the way back, after the request, turns full
      details off with the selectors already kept. */
  function Discover(visit: SchemaVisit, link: string, ai: Ai, s: Session): (r: Session)
    ensures r.schemaVisits == s.schemaVisits + [link]
    ensures r.records == s.records && r.fetched == s.fetched
    ensures visit.document.Raises? ==>
              !r.fullDetails && r.analyzed == s.analyzed && r.detailSelectors == s.detailSelectors
    ensures visit.document.Gives? ==>
              r.analyzed && r.fullDetails == (s.fullDetails && visit.backToList)
              && r.detailSelectors == OrNull(DetailSelectorsFromAi(
                   Serialise(Reduce(visit.document.value), ai.render), ai.generate, ai.parse))
  {
    var s1 := s.(schemaVisits := s.schemaVisits + [link]);
    match visit.document
    case Raises => s1.(fullDetails := false)
    case Gives(document) =>
      var markup := Serialise(Reduce(document), ai.render);
      var selectors := DetailSelectorsFromAi(markup, ai.generate, ai.parse);
      var s2 := s1.(detailSelectors := OrNull(selectors), analyzed := true);
      if visit.backToList then s2 else s2.(fullDetails := false)
  }

  /** Python's `None` for a missing value. */
  function OrNull(v: Option<Json>): Json {
    if v.Some? then v.value else JNull
  }

  /** `all_jobs.append(job_data)`. */
  function Append(s: Session, record: Record): (r: Session)
    ensures r.records == s.records + [record]
    ensures r.(records := s.records) == s
    ensures Consistent(s) && BaseKeys <= record.Keys ==> Consistent(r)
  {
    var r := s.(records := s.records + [record]);
    assert forall j | 0 <= j < |s.records| :: r.records[j] == s.records[j];
    r
  }

  /** Fetching the card's detail page with the session's detail selectors and
      merging the details over the base record (`job_data.update`); when going
      back to the listing raises, the card is dropped after the fetch. */
  function FetchDetails(base: Record, link: string, card: Card, s: Session): (r: Session)
    requires Truthy(s.detailSelectors)
    ensures r.fetched == s.fetched + [link]
    ensures r.(records := s.records, fetched := s.fetched) == s
    ensures card.backFromDetail ==>
              r.records == s.records + [base + ExtractJobDetails(card.detailPage, s.detailSelectors)]
    ensures !card.backFromDetail ==> r.records == s.records
    ensures Consistent(s) && BaseKeys <= base.Keys ==> Consistent(r)
  {
    var s1 := s.(fetched := s.fetched + [link]);
    if card.backFromDetail then Append(s1, base + ExtractJobDetails(card.detailPage, s.detailSelectors))
    else s1
  }

  /** The full-details branch of a card with a link: schema discovery when
      this is card 0 and none was done, then the detail fetch when detail
      selectors are truthy, else the base record as it is. */
  function WithDetails(base: Record, link: string, first: bool, card: Card, ai: Ai, s: Session): (r: Session)
    requires s.fullDetails
    ensures Consistent(s) && BaseKeys <= base.Keys ==> Consistent(r)
    ensures s.records <= r.records && |r.records| <= |s.records| + 1
    ensures r.fullDetails ==> s.fullDetails
    ensures s.analyzed ==> r.analyzed && r.detailSelectors == s.detailSelectors
    ensures r.schemaVisits != s.schemaVisits ==> first && !s.analyzed && r.schemaVisits == s.schemaVisits + [link]
    ensures r.fetched != s.fetched ==> Truthy(r.detailSelectors) && r.fetched == s.fetched + [link]
    ensures |r.records| > |s.records| ==>
              r.records[|s.records|] == base
              || (r.detailSelectors.JObject? && r.records[|s.records|] == base + ExtractJobDetails(card.detailPage, r.detailSelectors))
    // discovery exactly on card 0 before any analysis
    ensures r.schemaVisits == if first && !s.analyzed then s.schemaVisits + [link] else s.schemaVisits
    ensures !first || s.analyzed ==>
              r.analyzed == s.analyzed && r.detailSelectors == s.detailSelectors && r.fullDetails
    // which record is kept
    ensures !Truthy(r.detailSelectors) ==> r.fetched == s.fetched && r.records == s.records + [base]
    ensures Truthy(r.detailSelectors) ==>
              r.fetched == s.fetched + [link]
              && r.records == s.records + (if card.backFromDetail
                                           then [base + ExtractJobDetails(card.detailPage, r.detailSelectors)]
                                           else [])
  {
    var s1 := if !s.analyzed && first then Discover(card.schemaVisit, link, ai, s) else s;
    assert Consistent(s) ==> Consistent(s1);
    FetchOrKeep(base, link, card, s1)
  }

  /** After any discovery: the detail fetch when the detail selectors are
      truthy, else the base record as it is. */
  function FetchOrKeep(base: Record, link: string, card: Card, s: Session): (r: Session)
    ensures Consistent(s) && BaseKeys <= base.Keys ==> Consistent(r)
    ensures s.records <= r.records && |r.records| <= |s.records| + 1
    ensures r.(records := s.records, fetched := s.fetched) == s
    ensures r.fetched != s.fetched ==> Truthy(s.detailSelectors) && r.fetched == s.fetched + [link]
    ensures |r.records| > |s.records| ==>
              r.records[|s.records|] == base
              || (s.detailSelectors.JObject? && r.records[|s.records|] == base + ExtractJobDetails(card.detailPage, s.detailSelectors))
    // falsy detail selectors: nothing is fetched and the base record is kept as it is
    ensures !Truthy(s.detailSelectors) ==> r.fetched == s.fetched && r.records == s.records + [base]
    // truthy ones: the page is fetched, and the merged record is kept unless going back fails
    ensures Truthy(s.detailSelectors) ==>
              r.fetched == s.fetched + [link]
              && r.records == s.records + (if card.backFromDetail
                                           then [base + ExtractJobDetails(card.detailPage, s.detailSelectors)]
                                           else [])
  {
    if Truthy(s.detailSelectors) then
      var r := FetchDetails(base, link, card, s);
      assert |r.records| > |s.records| ==> r.records[|s.records|] == base + ExtractJobDetails(card.detailPage, s.detailSelectors);
      r
    else Append(s, base)
  }

  /** The body of the per-card `try`. `first` is `i == 0`. */
  function ProcessCard(selectors: map<string, Json>, pageUrl: string, first: bool, card: Card,
                       company: Option<string>, ai: Ai, s: Session): (r: Session)
    ensures Consistent(s) ==> Consistent(r)
    // records are only appended, at most one per card
    ensures s.records <= r.records && |r.records| <= |s.records| + 1
    // a card whose title or location raises is dropped and changes nothing
    ensures BaseRecord(selectors, pageUrl, card, company).None? ==> r == s
    ensures r.fullDetails ==> s.fullDetails
    ensures s.analyzed ==> r.analyzed && r.detailSelectors == s.detailSelectors
    // discovery happens only on the first card, with details on and not yet analysed
    ensures r.schemaVisits != s.schemaVisits ==>
              first && s.fullDetails && !s.analyzed && |r.schemaVisits| == |s.schemaVisits| + 1
    ensures !s.fullDetails ==> r.schemaVisits == s.schemaVisits && r.fetched == s.fetched
    // a detail page is fetched only with truthy detail selectors
    ensures r.fetched != s.fetched ==> Truthy(r.detailSelectors) && |r.fetched| == |s.fetched| + 1
    // the new record's company is the company name unless a detail key overrides it
    ensures |r.records| > |s.records| ==>
              BaseKeys <= r.records[|s.records|].Keys
              && (r.records[|s.records|]["company"] == company
                  || DetailCompany(r.detailSelectors))
    // a card whose base record is read is kept: as it is with details off or
    // no link, or after a detail fetch unless going back from it fails
    ensures var b := BaseRecord(selectors, pageUrl, card, company);
            b.Some? && (!s.fullDetails || !Present(b.value["job_url"])) ==>
              r == s.(records := s.records + [b.value])
    ensures var b := BaseRecord(selectors, pageUrl, card, company);
            b.Some? && r.fetched == s.fetched ==> r.records == s.records + [b.value]
    ensures var b := BaseRecord(selectors, pageUrl, card, company);
            r.fetched != s.fetched ==>
              b.Some? && Present(b.value["job_url"]) && r.fetched == s.fetched + [b.value["job_url"].value]
              && r.records == s.records + (if card.backFromDetail
                                           then [b.value + ExtractJobDetails(card.detailPage, r.detailSelectors)]
                                           else [])
    ensures var b := BaseRecord(selectors, pageUrl, card, company);
            b.Some? ==> (|r.records| == |s.records| <==> r.fetched != s.fetched && !card.backFromDetail)
    // discovery opens this card's link, and happens whenever card 0 has one before any analysis
    ensures var b := BaseRecord(selectors, pageUrl, card, company);
            r.schemaVisits != s.schemaVisits ==>
              b.Some? && Present(b.value["job_url"]) && r.schemaVisits == s.schemaVisits + [b.value["job_url"].value]
    ensures var b := BaseRecord(selectors, pageUrl, card, company);
            b.Some? && s.fullDetails && Present(b.value["job_url"]) && first && !s.analyzed ==>
              r.schemaVisits == s.schemaVisits + [b.value["job_url"].value]
  {
    match BaseRecord(selectors, pageUrl, card, company)
    case None => s
    case Some(base) => Keep(base, first, card, ai, s)
  }

  /** A card whose base record was read: with full details on and a link, the
      details branch; otherwise the base record is appended as it is. */
  function Keep(base: Record, first: bool, card: Card, ai: Ai, s: Session): (r: Session)
    requires BaseKeys <= base.Keys
    ensures Consistent(s) ==> Consistent(r)
    ensures s.records <= r.records && |r.records| <= |s.records| + 1
    ensures r.fullDetails ==> s.fullDetails
    ensures s.analyzed ==> r.analyzed && r.detailSelectors == s.detailSelectors
    ensures r.schemaVisits != s.schemaVisits ==>
              first && s.fullDetails && !s.analyzed && |r.schemaVisits| == |s.schemaVisits| + 1
    ensures !s.fullDetails ==> r.schemaVisits == s.schemaVisits && r.fetched == s.fetched
    ensures r.fetched != s.fetched ==> Truthy(r.detailSelectors) && |r.fetched| == |s.fetched| + 1
    ensures |r.records| > |s.records| ==>
              BaseKeys <= r.records[|s.records|].Keys
              && (r.records[|s.records|]["company"] == base["company"]
                  || DetailCompany(r.detailSelectors))
    // with details off or no link, exactly the base record is appended
    ensures !s.fullDetails || !Present(base["job_url"]) ==> r == s.(records := s.records + [base])
    // discovery needs the card's link, and happens on card 0 before any analysis
    ensures r.schemaVisits != s.schemaVisits ==>
              Present(base["job_url"]) && r.schemaVisits == s.schemaVisits + [base["job_url"].value]
    ensures s.fullDetails && Present(base["job_url"]) && first && !s.analyzed ==>
              r.schemaVisits == s.schemaVisits + [base["job_url"].value]
    // a detail page is fetched exactly with details on, a link and truthy detail selectors
    ensures r.fetched != s.fetched <==> s.fullDetails && Present(base["job_url"]) && Truthy(r.detailSelectors)
    // without a fetch the base record is kept; with one, the merged record unless going back fails
    ensures r.fetched == s.fetched ==> r.records == s.records + [base]
    ensures r.fetched != s.fetched ==>
              Present(base["job_url"]) && r.fetched == s.fetched + [base["job_url"].value]
              && r.records == s.records + (if card.backFromDetail
                                           then [base + ExtractJobDetails(card.detailPage, r.detailSelectors)]
                                           else [])
    ensures |r.records| == |s.records| <==> r.fetched != s.fetched && !card.backFromDetail
  {
    var link := base["job_url"];
    if s.fullDetails && Present(link) then
      var r := WithDetails(base, link.value, first, card, ai, s);
      MergeKeepsCompany(base, card.detailPage, r.detailSelectors);
      r
    else Append(s, base)
  }

  /** Merging details over a base record keeps the base keys, and keeps the
      base's company unless the detail selectors name a "company" key. */
  lemma MergeKeepsCompany(base: Record, page: DetailPage, selectors: Json)
    requires BaseKeys <= base.Keys
    ensures var merged := base + ExtractJobDetails(page, selectors);
            BaseKeys <= merged.Keys
            && (merged["company"] == base["company"] || DetailCompany(selectors))
  {
  }

  /** The `for i, card in enumerate(job_cards)` loop from the card at which
      `first` says whether it is card 0. */
  function ProcessCards(selectors: map<string, Json>, pageUrl: string, cards: seq<Card>, first: bool,
                        company: Option<string>, ai: Ai, s: Session): (r: Session)
    ensures Consistent(s) ==> Consistent(r)
    ensures s.records <= r.records && |r.records| <= |s.records| + |cards|
    ensures r.fullDetails ==> s.fullDetails
    ensures !s.fullDetails ==> r.schemaVisits == s.schemaVisits && r.fetched == s.fetched
    ensures s.analyzed ==> r.analyzed && r.detailSelectors == s.detailSelectors
    ensures Consistent(s) && CompanyCarried(s, company) ==> CompanyCarried(r, company)
    decreases |cards|
  {
    if |cards| == 0 then s
    else
      var s1 := ProcessCard(selectors, pageUrl, first, cards[0], company, ai, s);
      CardCarriesCompany(selectors, pageUrl, first, cards[0], company, ai, s);
      ProcessCards(selectors, pageUrl, cards[1..], false, company, ai, s1)
  }

  /** One card keeps every record naming the company: detail selectors with a
      "company" field are truthy, so they were set by the one discovery and no
      later card changes them. */
  lemma CardCarriesCompany(selectors: map<string, Json>, pageUrl: string, first: bool, card: Card,
                           company: Option<string>, ai: Ai, s: Session)
    ensures var r := ProcessCard(selectors, pageUrl, first, card, company, ai, s);
            Consistent(s) && CompanyCarried(s, company) ==> CompanyCarried(r, company)
  {
    var r := ProcessCard(selectors, pageUrl, first, card, company, ai, s);
    if Consistent(s) && CompanyCarried(s, company) {
      if DetailCompany(s.detailSelectors) {
        assert "company" in s.detailSelectors.fields.Keys;
        assert Truthy(s.detailSelectors);
      }
      forall j | 0 <= j < |r.records|
        ensures "company" in r.records[j]
                && (r.records[j]["company"] == company || DetailCompany(r.detailSelectors))
      {
        if j < |s.records| {
          assert r.records[j] == s.records[j];
        } else {
          assert j == |s.records|;
        }
      }
    }
  }

  /** Whether a page ends the walk: its cards did not appear, it has none, or
      the walk may not or cannot move to a next page. */
  predicate EndsWalk(selectors: map<string, Json>, page: ListPage) {
    !page.ready || |page.cards| == 0
    || !(Truthy(Get(selectors, "pagination_next")) && page.next.Enabled?)
  }

  /** The `while True` loop. The script running out counts as the browser
      failing, which ends the walk like any exception outside the per-card
      handler: the records gathered so far are kept. */
  function Walk(selectors: map<string, Json>, pages: seq<ListPage>, company: Option<string>,
                ai: Ai, s: Session): (r: Session)
    ensures Consistent(s) ==> Consistent(r)
    ensures s.records <= r.records
    ensures r.fullDetails ==> s.fullDetails
    ensures !s.fullDetails ==> r.schemaVisits == s.schemaVisits && r.fetched == s.fetched
    ensures |pages| == 0 || "job_item" !in selectors || !pages[0].ready || |pages[0].cards| == 0 ==> r == s
    ensures Consistent(s) && CompanyCarried(s, company) ==> CompanyCarried(r, company)
    decreases |pages|
  {
    if |pages| == 0 || "job_item" !in selectors then s
    else
      var page := pages[0];
      if !page.ready || |page.cards| == 0 then s
      else
        var s1 := ProcessCards(selectors, page.url, page.cards, true, company, ai, s);
        if EndsWalk(selectors, page) then s1
        else Walk(selectors, pages[1..], company, ai, s1)
  }

  // ---------------------------------------------------------------------------
  // The two modes.

  /** Which selectors `scrape_mode` uses: the given ones when truthy; else, with
      a company name, the stored configuration when present and truthy; else
      the single-site file, `None` when it does not exist. */
  function ResolveSelectors(given: Json, company: Option<string>, store: Store): (r: Option<Json>)
    ensures Truthy(given) ==> r == Some(given)
    ensures !Truthy(given) && company.Some? && |company.value| > 0 ==>
              (r.Some? <==> GetCompanyConfiguration(store, company.value).Some?
                            && Truthy(GetCompanyConfiguration(store, company.value).value))
              && (r.Some? ==> r == GetCompanyConfiguration(store, company.value))
    ensures !Truthy(given) && (company.None? || |company.value| == 0) ==> r == store.siteConfig
  {
    if Truthy(given) then Some(given)
    else if company.Some? && |company.value| > 0 then
      var stored := GetCompanyConfiguration(store, company.value);
      if stored.Some? && Truthy(stored.value) then stored else None
    else store.siteConfig
  }

  /** The whole session of `scrape_mode`. Selectors that are not an object make
      the first `selectors['job_item']` raise, so nothing is scraped. */
  function ScrapeSession(given: Json, company: Option<string>, store: Store, pages: seq<ListPage>,
                         fullDetails: bool, ai: Ai): (r: Session)
    ensures |r.schemaVisits| <= 1
    ensures |r.fetched| > 0 ==> Truthy(r.detailSelectors)
    ensures forall j | 0 <= j < |r.records| :: BaseKeys <= r.records[j].Keys
    ensures !fullDetails ==> r.schemaVisits == [] && r.fetched == []
    ensures ResolveSelectors(given, company, store).None? ==> r.records == []
    ensures CompanyCarried(r, company)
  {
    StartConsistent(fullDetails);
    match ResolveSelectors(given, company, store)
    case None => Start(fullDetails)
    case Some(selectors) =>
      if selectors.JObject? then Walk(selectors.fields, pages, company, ai, Start(fullDetails))
      else Start(fullDetails)
  }

  /** `scrape_mode`: the records, in page order and then card order. */
  function ScrapeMode(given: Json, company: Option<string>, store: Store, pages: seq<ListPage>,
                      fullDetails: bool, ai: Ai): (r: seq<Record>)
    ensures forall j | 0 <= j < |r| :: BaseKeys <= r[j].Keys
    ensures ResolveSelectors(given, company, store).None? ==> r == []
    // every record names the company, unless the one detail-selector answer has a "company" field
    ensures forall j | 0 <= j < |r| ::
              r[j]["company"] == company
              || DetailCompany(ScrapeSession(given, company, store, pages, fullDetails, ai).detailSelectors)
  {
    ScrapeSession(given, company, store, pages, fullDetails, ai).records
  }

  /** `scout_mode`: the landing page's reduced markup goes to the AI; a truthy
      answer is saved, under the company's key when a non-empty name is given
      and as the single-site configuration otherwise, and returned. Anything
      else returns `None` and saves nothing. */
  function ScoutMode(company: Option<string>, landing: Probe<seq<Node>>, ai: Ai, store: Store, now: string)
    : (r: (Option<Json>, Store))
    ensures r.0.Some? ==> Truthy(r.0.value)
    ensures r.0.None? ==> r.1 == store
    ensures landing.Raises? ==> r.0.None?
    ensures landing.Gives? ==>
              var answer := SelectorsFromAi(Serialise(Reduce(landing.value), ai.render), ai.generate, ai.parse);
              r.0 == (if answer.Some? && Truthy(answer.value) then answer else None)
    ensures r.0.Some? && company.Some? && |company.value| > 0 ==>
              r.1 == SaveConfiguration(store, company.value, r.0.value, now)
    ensures r.0.Some? && (company.None? || |company.value| == 0) ==>
              r.1 == store.(siteConfig := r.0)
  {
    match landing
    case Raises => (None, store)
    case Gives(document) =>
      var answer := SelectorsFromAi(Serialise(Reduce(document), ai.render), ai.generate, ai.parse);
      if answer.Some? && Truthy(answer.value) then
        if company.Some? && |company.value| > 0 then
          (answer, SaveConfiguration(store, company.value, answer.value, now))
        else (answer, store.(siteConfig := answer))
      else (None, store)
  }
}

=== FILE: wrappers.dfy ===
/** Failure-carrying wrappers shared by every module of the model. */
module Wrappers {

  /** Python's `None` or a present value. */
  datatype Option<+T> = None | Some(value: T)

  /** The outcome of a call that may raise: the browser, the network, an index out of range. */
  datatype Probe<+T> = Raises | Gives(value: T)
}
